=== FILE: README.md ===
# RAGTextField, modelled in Dafny

RAGTextField is a UIKit text field with a floating placeholder. When the
field has text (or, in one mode, while it is being edited) the placeholder
animates to a smaller, scaled position above the text. The field can also
show a hint caption below the text, and it pads the text to make room for
both and for the clear button. Two decoration views come with it:

- an underline whose foreground line expands while the field is edited;
- an outline drawn with a shape layer.

This project models the decision logic of these views as pure functions
over immutable records and proves what they promise:

- `TextField` (`text_field.dfy`): the placeholder mode tables, the clamped
  scale, the animation switch, the scale-and-translate transform of the
  scaled position, and the update step. The update step moves the
  placeholder between its base and scaled positions and keeps a cached
  "is scaled" flag. An event machine drives it from text, focus, font,
  padding and other property changes, and from layout passes.
- `TextFieldLayout` (`text_field_layout.dfy`): the four insets of the text
  rectangle, the side and frame of the clear button, and the intrinsic
  height.
- `UnderlineView` (`underline_view.dfy`): the library's underline. It
  covers the expand-mode × layout-direction table of edge constraints, the
  idempotent `setExpanded`, and the binding to a text field through
  editing notifications.
- `LegacyUnderlineView` (`underline_view_legacy.dfy`) and
  `ExampleUnderlineView` (`underline_view_example.dfy`): the two earlier
  copies of the underline. Lemmas relate each of them to the library view.
  The example copy shares the legacy copy's state, initial state and
  `lineWidth` setter, which are identical in the two files, and differs
  only in `.notAnimated` mode.
- `PlaceholderView` (`placeholder_view.dfy`): the anchor point per text
  alignment, the scale animation, and the layout pass that waits for it.
- `OutlineView` (`outline_view.dfy`): the path the outline is drawn along,
  and how the view's properties reach its layer.
- `Colors` (`colors.dfy`): the four-channel colour value and `.clear` and
  `.black`.
- `ColorHex` (`color_hex.dfy`): `UIColor(hex:)`, which reads three bytes
  out of an integer.
- `Geometry` and `Wrappers`: rectangles, insets, `ceil`, layout direction,
  text alignment, and `Option`.

Modelling choices:

- CGFloat is `real`. `ceil` is `Geometry.Ceil`.
- Text measurement is outside the model. The raw glyph height of the
  field's font is a field of the text field, which a font change replaces.
  A `Metrics` value carries those of the placeholder and hint fonts. The
  field rounds them up as the source does.
- These are inputs: the interface layout direction, the size of the
  superclass's clear button, the first-responder status, the transform the
  presentation layer reports, and the width Auto Layout gives the
  placeholder label in each layout pass.
- A constraint is modelled by its active flag. The text field's
  placeholder transform is the identity or a uniform scale followed by a
  whole-point translation. `PlaceholderView`'s transform is its scale.
- The notification centre is the set of (field, notification) pairs a view
  observes.
- The field's `text` starts as `Some("")`, which is what UIKit returns for
  a fresh text field. The decision tables treat `nil` and `""` alike, so
  this choice does not affect them.

## Model

| member | source | states |
|---|---|---|
| Geometry.Inset | RAGTextField/Classes/RAGTextField.swift:505-515 | Insetting a rect moves each edge inward by its own inset, with no clamping. |
| Geometry.InsetByZero | Sources/RAGTextField/Classes/Views/OutlineView.swift:108-113 | Insetting by `.zero` returns the same rectangle. |
| Geometry.Ceil | RAGTextField/Classes/RAGTextField.swift:403-410 | `ceil` gives the least integer not below its argument. |
| Geometry.CeilOfInt | RAGTextField/Classes/RAGTextField.swift:757-763 | Rounding up a whole number leaves it unchanged. |
| Geometry.CeilShift | RAGTextField/Classes/RAGTextField.swift:517-523 | Rounding up commutes with adding a whole number. |
| Geometry.SideOf | Sources/RAGTextField/Classes/Views/UnderlineView.swift:245-264 | A leading anchor is on the left exactly in left-to-right layout. A trailing anchor is on the left exactly in right-to-left layout. |
| TextField.ShouldDisplayScaledPlaceholder | RAGTextField/Classes/RAGTextField.swift:455-468 | `.simple` never scales. `.scalesWhenNotEmpty` scales iff the text is non-nil and non-empty. `.scalesWhenEditing` scales iff the text is non-empty or the field is first responder. Scaling implies `scalesPlaceholder`. |
| TextField.ShouldDisplayPlaceholder | RAGTextField/Classes/RAGTextField.swift:470-483 | Both scaling modes always show the placeholder. `.simple` shows it iff the text is nil or empty. |
| TextField.ScaledPlaceholderIsDisplayed | RAGTextField/Classes/RAGTextField.swift:455-483 | A placeholder that should be scaled should also be displayed. |
| TextField.NilTextCountsAsEmpty | RAGTextField/Classes/RAGTextField.swift:459-462 | Both decisions treat `nil` text exactly like `""`. |
| TextField.EditingModeScalesMore | RAGTextField/Classes/RAGTextField.swift:38-45 | `.scalesWhenEditing` scales whenever `.scalesWhenNotEmpty` does. It also scales in exactly one more case: an empty field that is first responder. |
| TextField.ClampedScale | RAGTextField/Classes/RAGTextField.swift:202-211 | The stored scale is never negative. A negative write stores 0, and any other write is stored unchanged. |
| TextField.ClampedScaleIdempotent | RAGTextField/Classes/RAGTextField.swift:202-211 | Clamping twice is the same as clamping once, and there is no upper bound. |
| TextField.AnimatesPlaceholder | RAGTextField/Classes/RAGTextField.swift:246-256 | A nil duration (the 0.2 s default) animates. An explicit duration animates iff it is positive. |
| TextField.MeasureTextHeight | RAGTextField/Classes/RAGTextField.swift:403-410 | A measured height is rounded up to whole points: it is not below the raw height and less than one point above it. |
| TextField.HorizontalTranslation | RAGTextField/Classes/RAGTextField.swift:669-703 | The horizontal translation brings back the edge the text starts from after scaling about the centre: the left edge for left, or natural and justified left-to-right, text; the right edge for right, or natural and justified right-to-left, text. Centred text is not moved. |
| TextField.VerticalTranslation | RAGTextField/Classes/RAGTextField.swift:684-684 | The vertical translation puts the bottom edge of the scaled label `verticalTextPadding + scaledPlaceholderOffset` above where the top of the unscaled label was, for a label one measured line high. |
| TextField.ScaledTransform | RAGTextField/Classes/RAGTextField.swift:660-692 | The scaled position has the field's scale, and each translation is its unrounded value rounded up to whole points. |
| TextField.TranslationKeepsAnchorPoint | RAGTextField/Classes/RAGTextField.swift:663-682 | Translating the label pins the same point that moving the layer's anchor point would: the point the standalone placeholder view anchors on, for every known alignment and direction. |
| TextField.PaddingLiftsScaledPlaceholder | RAGTextField/Classes/RAGTextField.swift:684-685 | Adding n whole points of vertical padding lifts the scaled placeholder by exactly n and changes nothing else of its transform. |
| TextField.ExpectedTransform | RAGTextField/Classes/RAGTextField.swift:644-654 | The expected transform is the scaled-position transform for the field's current scale, translations and size exactly when the placeholder should be scaled. Otherwise it is the base position. |
| TextField.ExpectedTransformInputs | RAGTextField/Classes/RAGTextField.swift:644-703 | The expected transform depends on the text, focus, mode, scale, offset, alignment, vertical padding, font height, label width and direction, and on nothing else. |
| TextField.UpdatePlaceholderTransform | RAGTextField/Classes/RAGTextField.swift:614-639 | The transform always ends as the expected one. With the animation disabled, nothing else changes. Otherwise it animates iff `animated` and the desired state differs from the cached flag, the flag follows the desired state only on animated calls, and visibility is updated. |
| TextField.UpdatePlaceholderTransformCorrected | RAGTextField/Classes/RAGTextField.swift:614-639 | Same transform, flag and animation as the update as written. Visibility is set from `shouldDisplayPlaceholder()` on every path. |
| TextField.RepeatedUpdateDoesNotAnimate | RAGTextField/Classes/RAGTextField.swift:262-269 | A second animated update with nothing changed starts no animation and changes nothing. |
| TextField.SetHint | RAGTextField/Classes/RAGTextField.swift:108-119 | Setting the hint hides the label iff the new value is nil. It schedules a placeholder update and changes nothing else. |
| TextField.HintRoundTrip | RAGTextField/Classes/RAGTextField.swift:108-124 | Reading the hint back gives the string written, or `""` after writing nil. |
| TextField.SetScale | RAGTextField/Classes/RAGTextField.swift:202-211 | The scale setter stores the clamped value, schedules a placeholder update and changes nothing else. |
| TextField.InitialField | RAGTextField/Classes/RAGTextField.swift:361-381 | A fresh field has empty text, no focus, natural alignment, a hidden, empty hint, mode `.scalesWhenNotEmpty`, scale 1 and the default duration. Its offset and both paddings are 0, as their declarations give them. Its placeholder is unscaled and not yet laid out, and an update is pending for the first layout pass. |
| TextField.UpdateWith | RAGTextField/Classes/RAGTextField.swift:614-639 | Storing an update's result changes only the placeholder state. The transform becomes the expected one. With the corrected rule, so does visibility. |
| TextField.LayoutPass | RAGTextField/Classes/RAGTextField.swift:740-747 | A layout pass gives the label its new width and clears the pending flag. When an update was pending it leaves the transform as expected. As written, an unflagged pass changes only the width. The corrected pass also updates when the width changed. |
| TextField.PendingLayoutUpdatesPlaceholder | RAGTextField/Classes/RAGTextField.swift:740-747 | As written, a layout pass with an update pending sets the label width, brings the placeholder transform up to date for that width and clears the flag. Nothing outside the placeholder state changes. |
| TextField.Step | RAGTextField/Classes/RAGTextField.swift:84-233 | Text and focus changes leave the placeholder at its expected transform, after any pending layout pass. A layout pass stores the label width and clears the pending-update flag. A font or vertical-padding change schedules an update only under the corrected rule. Only user edits and focus changes animate. |
| TextField.StepKeepsTransformSynced | RAGTextField/Classes/RAGTextField.swift:614-639 | Whenever no layout pass is pending, one event keeps the transform equal to the expected one. This holds under the corrected rule for every event. As written it holds for every event except a font change, a vertical-padding change and a layout pass that resizes the label. |
| TextField.StepKeepsSynced | RAGTextField/Classes/RAGTextField.swift:614-639 | Under the corrected rule, one event keeps both transform and visibility as expected whenever no layout pass is pending. |
| TextField.RunKeepsSynced | RAGTextField/Classes/RAGTextField.swift:740-748 | Under the corrected rule, every event sequence keeps transform and visibility as expected whenever no layout pass is pending. This includes font, padding and width changes. |
| TextField.AsWrittenLeavesPlaceholderOverText | RAGTextField/Classes/RAGTextField.swift:618-623 | With `.simple` mode and a zero duration, setting text leaves the placeholder visible although it should be hidden. |
| TextField.AsWrittenPaddingLeavesTransformStale | RAGTextField/Classes/RAGTextField.swift:353-357 | As written, setting the vertical padding of a field with a scaled placeholder, then laying out, leaves the old transform: no update is pending and the transform is 4 points off the expected one. |
| TextField.AsWrittenResizeLeavesTransformStale | RAGTextField/Classes/RAGTextField.swift:740-747 | As written, a layout pass that widens the label of a scaled placeholder, natural-aligned in left-to-right layout, keeps the old horizontal translation, which no longer matches the expected one. |
| TextFieldLayout.ClearButtonPosition | RAGTextField/Classes/RAGTextField.swift:312-319 | The clear button is on the left iff the alignment is `.natural` and the layout is right-to-left. |
| TextFieldLayout.ScaledPlaceholderHeight | RAGTextField/Classes/RAGTextField.swift:485-491 | The scaled height is 0 in `.simple` mode. Otherwise it is the scale times the rounded placeholder height, rounded up. It is never negative for a non-negative scale and height. |
| TextFieldLayout.TopInset | RAGTextField/Classes/RAGTextField.swift:517-523 | In `.simple` mode the top inset is the rounded-up vertical padding. Otherwise it is the scaled placeholder height plus the rounded-up offset and padding. |
| TextFieldLayout.TopInsetTracksPadding | RAGTextField/Classes/RAGTextField.swift:517-523 | Adding n whole points of vertical padding moves the text down by exactly n. |
| TextFieldLayout.ScaledPlaceholderHasRoom | RAGTextField/Classes/RAGTextField.swift:485-523 | In either scaling mode, the top inset covers the scaled placeholder height, its offset and the padding, whether or not the placeholder is scaled at the moment. |
| TextFieldLayout.HintHeight | RAGTextField/Classes/RAGTextField.swift:151-158 | A hidden hint contributes 0. A visible hint contributes its rounded-up measured height. |
| TextFieldLayout.BottomInset | RAGTextField/Classes/RAGTextField.swift:534-539 | The bottom inset is the hint height plus the rounded-up padding, so the padding alone when the hint is hidden. |
| TextFieldLayout.NoHintLeavesOnlyPadding | RAGTextField/Classes/RAGTextField.swift:108-119 | After `hint = nil`, the bottom inset is the rounded-up padding alone, whatever hint was set before. |
| TextFieldLayout.ClearButtonRect | RAGTextField/Classes/RAGTextField.swift:550-566 | The button keeps the superclass's size and sits the horizontal padding away from its side. It is centred vertically on the first text line below the top inset. |
| TextFieldLayout.LeftInset | RAGTextField/Classes/RAGTextField.swift:525-532 | The left inset is twice the padding plus the button width when the button is on the left. Otherwise it is the padding. |
| TextFieldLayout.RightInset | RAGTextField/Classes/RAGTextField.swift:541-548 | The right inset is twice the padding plus the button width when the button is on the right. Otherwise it is the padding. |
| TextFieldLayout.TextAndEditingRect | RAGTextField/Classes/RAGTextField.swift:505-515 | Each edge of the requested bounds moves in by its computed inset. The clear-button side loses 2·padding + button width; the other side loses the padding. |
| TextFieldLayout.TextRect | RAGTextField/Classes/RAGTextField.swift:495-498 | The text rectangle lies between the top and bottom insets of the bounds asked for, and is narrower by three paddings and the clear button's width. |
| TextFieldLayout.EditingRect | RAGTextField/Classes/RAGTextField.swift:500-503 | The editing rectangle lies between the top and bottom insets of the bounds asked for, and is narrower by three paddings and the clear button's width. |
| TextFieldLayout.TextAndEditingRectsCoincide | RAGTextField/Classes/RAGTextField.swift:495-503 | `textRect` and `editingRect` agree, and neither depends on the view's own bounds. |
| TextFieldLayout.ClearButtonBesideText | RAGTextField/Classes/RAGTextField.swift:525-566 | The clear button is separated from the text rectangle by exactly the horizontal padding, on the side it is placed. |
| TextFieldLayout.IntrinsicHeight | RAGTextField/Classes/RAGTextField.swift:757-763 | The intrinsic height is top inset + one text line + bottom inset. The final rounding changes nothing. |
| UnderlineView.PinnedSides | Sources/RAGTextField/Classes/Views/UnderlineView.swift:88-96 | The physical sides the active constraints pin are the leading side iff leading is active, and the trailing side iff trailing is active. |
| UnderlineView.EdgeConstraints | Sources/RAGTextField/Classes/Views/UnderlineView.swift:242-267 | Never both edges. Center and `.notAnimated` pin nothing. `.expandsFromLeft` always pins the physical left side and `.expandsFromRight` the right. `.expandsInUserInterfaceDirection` pins leading. |
| UnderlineView.ObservationsOf | Sources/RAGTextField/Classes/Views/UnderlineView.swift:214-230 | Observing a field registers both editing notifications of that field and of no other. Observing nil registers nothing. |
| UnderlineView.Initial | Sources/RAGTextField/Classes/Views/UnderlineView.swift:181-212 | A new underline is contracted, its full-width constraint is inactive, it observes nothing, and its invariant holds. |
| UnderlineView.SetExpanded | Sources/RAGTextField/Classes/Views/UnderlineView.swift:274-290 | Requesting the current state is a no-op. Otherwise the line takes the requested state, with the width constraint active iff expanded. An animation is requested iff the state changes, `animated` is set and the mode is not `.notAnimated`. |
| UnderlineView.SetExpandedIdempotent | Sources/RAGTextField/Classes/Views/UnderlineView.swift:274-278 | Repeating a request changes nothing and animates nothing. |
| UnderlineView.UpdateConstraints | Sources/RAGTextField/Classes/Views/UnderlineView.swift:242-267 | A constraint pass activates exactly the edges the mode × direction table gives. It never activates both edges, pins nothing iff the mode is center or `.notAnimated`, and changes nothing but the edge constraints. |
| UnderlineView.SetExpandMode | Sources/RAGTextField/Classes/Views/UnderlineView.swift:76-81 | Changing the mode schedules a constraint pass and changes nothing else. |
| UnderlineView.SetForegroundLineWidth | Sources/RAGTextField/Classes/Views/UnderlineView.swift:55-59 | The height constraint's constant follows the foreground line width. |
| UnderlineView.SetTextField | Sources/RAGTextField/Classes/Views/UnderlineView.swift:126-136 | Binding a field stops observing the old one and observes the new one. Binding nil leaves no observation. |
| UnderlineView.Post | Sources/RAGTextField/Classes/Views/UnderlineView.swift:232-240 | An observed begin-editing expands with the begin flag, and an observed end-editing contracts with the end flag. An unobserved notification changes nothing. |
| UnderlineView.RebindingDropsOldField | Sources/RAGTextField/Classes/Views/UnderlineView.swift:126-136 | After rebinding, notifications from the previous field change nothing. |
| UnderlineView.BoundFieldDrivesExpansion | Sources/RAGTextField/Classes/Views/UnderlineView.swift:220-240 | Once a field is bound, its begin-editing expands the line and its end-editing contracts it. |
| LegacyUnderlineView.Initial | RAGTextField/Classes/UnderlineView.swift:149-177 | A new underline is contracted with its full-width constraint inactive. |
| LegacyUnderlineView.EdgeConstraints | RAGTextField/Classes/UnderlineView.swift:182-207 | Never both edges. Center and `.notAnimated` pin nothing. Left and right modes pin that physical side in either direction. |
| LegacyUnderlineView.SameTableAsLibrary | RAGTextField/Classes/UnderlineView.swift:182-207 | This view's table is the library view's table in every mode and direction. |
| LegacyUnderlineView.UpdateConstraints | RAGTextField/Classes/UnderlineView.swift:182-207 | A constraint pass activates exactly the edges this view's table gives. It never activates both edges, pins nothing iff the mode is center or `.notAnimated`, and changes nothing else. |
| LegacyUnderlineView.SetExpanded | RAGTextField/Classes/UnderlineView.swift:214-230 | No-op on the current state. Otherwise the line takes the request, with the width constraint active iff expanded. It animates iff the state changes, `animated` is set and the mode is not `.notAnimated`. |
| LegacyUnderlineView.SetExpandedIdempotent | RAGTextField/Classes/UnderlineView.swift:214-218 | Repeating a request changes nothing and animates nothing. |
| LegacyUnderlineView.SetExpandedAgreesWithLibrary | RAGTextField/Classes/UnderlineView.swift:214-230 | This view and the library view reach the same expansion and request animations in the same cases. |
| LegacyUnderlineView.SetLineWidth | RAGTextField/Classes/UnderlineView.swift:55-59 | The height constraint's constant follows `lineWidth`. |
| ExampleUnderlineView.EdgeConstraints | Example/RAGTextField/UnderlineView.swift:148-174 | Both edges are pinned iff the mode is `.notAnimated`. Center pins nothing, and left and right modes pin that physical side. |
| ExampleUnderlineView.TableDiffersFromLibraryOnlyWhenNotAnimated | Example/RAGTextField/UnderlineView.swift:148-174 | The table agrees with the library view in every mode but `.notAnimated`, which pins both sides here and none there. |
| ExampleUnderlineView.UpdateConstraints | Example/RAGTextField/UnderlineView.swift:148-174 | A constraint pass activates exactly the edges this view's table gives. It pins both edges iff the mode is `.notAnimated`, and changes nothing else. |
| ExampleUnderlineView.SetExpanded | Example/RAGTextField/UnderlineView.swift:177-193 | No-op on the current state. Otherwise the line takes the request, with the width constraint active iff expanded. It animates iff the state changes and `animated` is set, whatever the mode. |
| ExampleUnderlineView.SetExpandedIdempotent | Example/RAGTextField/UnderlineView.swift:177-181 | Repeating a request changes nothing and animates nothing. |
| ExampleUnderlineView.AnimationDiffersFromLibraryOnlyWhenNotAnimated | Example/RAGTextField/UnderlineView.swift:185-189 | This view animates exactly when the library view does, except in `.notAnimated` mode, where only this view animates a change. |
| PlaceholderView.Initial | Sources/RAGTextField/Classes/PlaceholderView.swift:33-60 | A new view's label has the identity transform, no animation, natural alignment and its anchor at the centre. |
| PlaceholderView.InitialAnchorIgnoresAlignment | Sources/RAGTextField/Classes/PlaceholderView.swift:33-60 | Until the alignment is first set, a fresh view's anchor is not the one its natural alignment calls for, in either direction. |
| PlaceholderView.AnchorPoint | Sources/RAGTextField/Classes/PlaceholderView.swift:76-91 | The anchor's y is 0.5 and its x is 0, 0.5 or 1. It is 0.5 iff centred, and 1 iff right-aligned or natural/justified in right-to-left layout. Unknown alignments get 0. |
| PlaceholderView.AnchorFollowsStartEdge | Sources/RAGTextField/Classes/PlaceholderView.swift:78-83 | Natural and justified text anchors on the leading side. Left and right text anchors on that physical side in either direction. |
| PlaceholderView.SetTextAlignment | Sources/RAGTextField/Classes/PlaceholderView.swift:66-91 | Setting the alignment moves the anchor to match and resets the label's frame to the bounds. Nothing else changes. |
| PlaceholderView.TextAlignmentRoundTrip | Sources/RAGTextField/Classes/PlaceholderView.swift:66-74 | Reading the alignment back gives what was set, and the anchor agrees with it. |
| PlaceholderView.LayoutSubviews | Sources/RAGTextField/Classes/PlaceholderView.swift:121-134 | A layout pass resets the label frame to the bounds unless a scale animation is attached, in which case it changes nothing. |
| PlaceholderView.ScaleLabel | Sources/RAGTextField/Classes/PlaceholderView.swift:93-111 | The label's transform ends as the uniform scale (s, s, 1) either way. Earlier animations are removed, and a scale animation from the presented transform is attached iff `animated`. The opening layout pass resets the label's frame to the bounds only when one is pending and no scale animation is in flight. |
| PlaceholderView.CompleteAnimations | Sources/RAGTextField/Classes/PlaceholderView.swift:130-133 | Once its animations finish, the label is no longer animating, and nothing but the animations changes. |
| PlaceholderView.AnimatedScaleEndsLikeInstantScale | Sources/RAGTextField/Classes/PlaceholderView.swift:93-111 | After the animation finishes, an animated scale and an instant one leave the view in the same state. |
| PlaceholderView.LayoutWaitsForAnimation | Sources/RAGTextField/Classes/PlaceholderView.swift:121-134 | While the scale animation runs, layout leaves the view alone. Afterwards it resets the label frame. |
| OutlineView.Initial | Sources/RAGTextField/Classes/Views/OutlineView.swift:43-94 | After init the layer's fill is nil and the background clear. `lineColor` reads black, but the layer has no stroke colour. |
| OutlineView.InitialCorrected | Sources/RAGTextField/Classes/Views/OutlineView.swift:57-61 | Same as the initial state as written, except that the layer's stroke colour is `lineColor`. |
| OutlineView.MakePath | Sources/RAGTextField/Classes/Views/OutlineView.swift:106-123 | The path's rect is the bounds inset by `outlineInsets`, which for zero insets is the bounds. The path is rounded iff `cornerRadius != 0`, with that radius. |
| OutlineView.LayoutSubviews | Sources/RAGTextField/Classes/Views/OutlineView.swift:96-101 | A layout pass sets the layer's path from the current bounds, insets and radius, and changes nothing else. |
| OutlineView.Step | Sources/RAGTextField/Classes/Views/OutlineView.swift:43-76 | Line width, colours and corner radius reach the layer as they are set. Geometry changes schedule a layout pass, and a layout pass rebuilds the path. |
| OutlineView.StepKeepsConsistent | Sources/RAGTextField/Classes/Views/OutlineView.swift:43-101 | One change keeps the layer consistent with the view's properties. |
| OutlineView.RunKeepsConsistent | Sources/RAGTextField/Classes/Views/OutlineView.swift:43-101 | Every change sequence keeps the layer consistent with the view's properties: its path is current whenever no layout is pending, and line width, stroke colour and radius are forwarded. |
| OutlineView.CorrectedInitialIsConsistent | Sources/RAGTextField/Classes/Views/OutlineView.swift:57-61 | The corrected initial state is consistent. |
| OutlineView.AsWrittenInitialStrokeIsUnset | Sources/RAGTextField/Classes/Views/OutlineView.swift:78-94 | As written, a fresh view still has no stroke colour after a layout pass, although `lineColor` is black. |
| ColorHex.LowByte | Example/RAGTextField/UIColor+Hex.swift:11-13 | `x & 0xff` lies in [0, 255], and `x` differs from it by a multiple of 256. |
| ColorHex.ShiftRightBytes | Example/RAGTextField/UIColor+Hex.swift:11-13 | `x >> 8k` is `x` divided by 256^k, rounded down, negative values included. |
| ColorHex.Bytes | Example/RAGTextField/UIColor+Hex.swift:11-13 | All three extracted channels are bytes, and blue is the lowest byte. |
| ColorHex.FromHex | Example/RAGTextField/UIColor+Hex.swift:10-16 | Alpha is 1. Every channel lies in [0, 1] and is its byte divided by 255. |
| ColorHex.Recombine | Example/RAGTextField/UIColor+Hex.swift:7-13 | r·65536 + g·256 + b equals the low 24 bits of `hex`, negative values included. |
| ColorHex.HighBitsIgnored | Example/RAGTextField/UIColor+Hex.swift:11-13 | `hex` and `hex + k·2^24` give the same channels. |
| ColorHex.BytesOfToHex | Example/RAGTextField/UIColor+Hex.swift:7-13 | Every byte triple written as `0xRRGGBB` decodes back to itself. |
| ColorHex.FromHexDependsOnLowBits | Example/RAGTextField/UIColor+Hex.swift:10-16 | Two integers give the same colour iff their low 24 bits agree. |

## Left out

- Text measurement (`measureTextHeight`, `String.size(using:)`) is a call into UIKit's text layout. Raw glyph heights are inputs; only the rounding up is modelled.
- The 4×4 matrices of the placeholder's transforms are not modelled. `CATransform3DConcat` of a uniform scale and a translation is kept as the scale and the two translations.
- `TextField.HorizontalTranslation`: gives an alignment the `switch` does not list no translation. In Swift such a value would stop the program, because the `switch` has no `@unknown default`.
- The label width is whatever Auto Layout gives the placeholder label, supplied with each layout pass. The constraints that produce it (the bounds less twice the horizontal padding) are not solved.
- Core Animation timing, easing and presentation-layer sampling are outside the model. An animation is modelled as requested, with its target; its progress is not modelled.
- Auto Layout solving is outside the model. Constraints are modelled by their active flags; the frames the solver would compute are not.
- Colour and tint-colour setters, the placeholder text, the hint and placeholder fonts, `awakeFromNib`, the hint's frame and the text background view's frame are forwarding to labels and frame arithmetic with no decision in them. The `font` setter is modelled by the new measured height of the field's font; its forwarding to the hint and placeholder labels is not, as those fonts' heights are inputs.
- `TextField.StepKeepsTransformSynced`: under the update as written, does not cover a font change, a vertical-padding change or a layout pass that resizes the label, because those leave the transform stale (see Findings).
- `updatePlaceholderConstraints` writes the top inset and the horizontal padding into Auto Layout constants; the values themselves are modelled by `TopInset`.
- `PlaceholderView.intrinsicContentSize` asks Auto Layout to size the label.
- The weak references (`textField`, `textBackgroundView`) are modelled as plain optional references; deallocation is not modelled.
- `UnderlineView.ObservationsOf`: states that every registration belongs to the bound field and that both of its notifications are registered, rather than spelling out the set.
- Properties that exist only in newer releases (`textPadding`, `textPaddingMode`, `hintOffset`, `layoutAlwaysIncludesHint`, a `scalesAlways` mode) are not part of this model. The example app calls them, but the field modelled here does not define them.
- The example app's view controllers, keyboard helper, colour palette and pill view are demonstration code.

## Findings

| source | as written | input that shows it | evidently intended | confidence | as-written member | corrected member |
|---|---|---|---|---|---|---|
| RAGTextField/Classes/RAGTextField.swift:618-623 | With the animation disabled, `updatePlaceholderTransform` sets the transform and returns before it updates the placeholder's visibility. | Mode `.simple`, `placeholderAnimationDuration = 0`, one layout pass, then `text = "a"`: the placeholder label stays visible over the text. | The placeholder is hidden whenever `shouldDisplayPlaceholder()` is false, whatever the animation setting. | high; not executed | TextField.UpdatePlaceholderTransform, TextField.AsWrittenLeavesPlaceholderOverText | TextField.UpdatePlaceholderTransformCorrected, TextField.RunKeepsSynced |
| RAGTextField/Classes/RAGTextField.swift:345-357 | The padding setters and the `font` setter only call `setNeedsUpdateConstraints()`. `layoutSubviews` recomputes the placeholder transform only when `needsUpdateOfPlaceholderTransformAfterLayout` is set. But the scaled transform reads the vertical padding, the font's measured height and the label's width. | A scaled placeholder, then `verticalTextPadding = 4` and a layout pass: the label moves down with the new top inset, but its translation is still the old one, 4 points short. Widening the label in a layout pass likewise keeps the old horizontal translation. | A change to any input of the scaled transform schedules a placeholder update, as the alignment, offset and scale setters do. | medium (the label moves with its constraints, so the stale translation shows as a displaced placeholder); not executed | TextField.Step, TextField.AsWrittenPaddingLeavesTransformStale, TextField.AsWrittenResizeLeavesTransformStale | TextField.Step, TextField.RunKeepsSynced |
| Sources/RAGTextField/Classes/Views/OutlineView.swift:57-94 | The `.black` default of `lineColor` is a property initialiser, which does not run `didSet`. `commonInit` does not copy it to the shape layer, whose stroke colour starts as nil. | `OutlineView(frame:)` with `lineColor` never assigned, then a layout pass: the path is set but stroked in no colour. | The layer strokes in `lineColor` from the start, so a default outline is drawn in black. | medium (relies on the shape layer's nil default stroke colour); not executed | OutlineView.Initial, OutlineView.AsWrittenInitialStrokeIsUnset | OutlineView.InitialCorrected, OutlineView.RunKeepsConsistent |

=== FILE: color_hex.dfy ===
/**
 * `UIColor(hex:)`: an opaque colour from a `0xRRGGBB` integer. Each channel
 * is one byte of the integer, taken with an arithmetic right shift and a
 * mask of the low eight bits, then scaled into [0, 1].
 *
 * Swift's `Int` is a 64-bit two's-complement integer. On it, `x >> k` is
 * floor division by 2^k and `x & 0xff` is the non-negative remainder
 * modulo 256, which are Dafny's `/` and `%` for a positive divisor; both
 * agree for every integer, so the model needs no width bound.
 */
module ColorHex {
  import opened Colors

  /** Three channel bytes. */
  datatype Rgb = Rgb(red: int, green: int, blue: int)

  predicate IsByte(x: int)
  {
    0 <= x < 256
  }

  predicate ValidRgb(c: Rgb)
  {
    IsByte(c.red) && IsByte(c.green) && IsByte(c.blue)
  }

  /** 256 to the power `k`. */
  function Pow256(k: nat): (p: int)
    ensures p >= 1
  {
    if k == 0 then 1 else 256 * Pow256(k - 1)
  }

  /** One more byte shifted out: floor division by `256 p` is floor division by `p`, then by 256. */
  lemma ShiftOneMoreByte(p: int, s: int, x: int)
    requires p >= 1 && p * s <= x < p * (s + 1)
    ensures 256 * p * (s / 256) <= x < 256 * p * (s / 256 + 1)
  {
    var q, m := s / 256, s % 256;
    assert s == 256 * q + m && 0 <= m < 256;
    assert p * s == 256 * p * q + p * m;
    assert p * m >= 0;
    assert p * (s + 1) == 256 * p * q + p * (m + 1);
    assert p * (m + 1) <= p * 256;
  }

  /** `x >> 8k` on a two's-complement integer: the quotient of `x` by 256^k, rounded down. */
  function ShiftRightBytes(x: int, k: nat): (r: int)
    ensures Pow256(k) * r <= x < Pow256(k) * (r + 1)
  {
    if k == 0 then x
    else
      var s := ShiftRightBytes(x, k - 1);
      ShiftOneMoreByte(Pow256(k - 1), s, x);
      s / 256
  }

  /** Shifting out one byte is dividing by 256. */
  lemma ShiftOnce(x: int)
    ensures ShiftRightBytes(x, 1) == x / 256
  {
  }

  /** Shifting out two bytes is dividing by 256 twice. */
  lemma ShiftTwice(x: int)
    ensures ShiftRightBytes(x, 2) == x / 256 / 256
  {
    ShiftOnce(x);
  }

  /** `x & 0xff` on a two's-complement integer: the low byte, never negative. */
  function LowByte(x: int): (b: int)
    ensures IsByte(b)
    ensures exists q :: x == 256 * q + b
  {
    assert x == 256 * (x / 256) + x % 256;
    x % 256
  }

  /** The three byte extractions of `init(hex:)`. */
  function Bytes(hex: int): (c: Rgb)
    ensures ValidRgb(c)
    ensures c.blue == LowByte(hex)
  {
    Rgb(LowByte(ShiftRightBytes(hex, 2)), LowByte(ShiftRightBytes(hex, 1)), LowByte(ShiftRightBytes(hex, 0)))
  }

  /** `init(hex:)`: each byte divided by 255, fully opaque. */
  function FromHex(hex: int): (c: Color)
    ensures c.alpha == 1.0
    ensures 0.0 <= c.red <= 1.0 && 0.0 <= c.green <= 1.0 && 0.0 <= c.blue <= 1.0
    ensures c.red * 255.0 == Bytes(hex).red as real
    ensures c.green * 255.0 == Bytes(hex).green as real
    ensures c.blue * 255.0 == Bytes(hex).blue as real
  {
    var b := Bytes(hex);
    Color(b.red as real / 255.0, b.green as real / 255.0, b.blue as real / 255.0, 1.0)
  }

  /** The integer `0xRRGGBB` a byte triple is written as. */
  function ToHex(c: Rgb): int
  {
    c.red * 65536 + c.green * 256 + c.blue
  }

  /** `x` divided by 256 with remainder is unique. */
  lemma DivMod256(x: int, q: int, r: int)
    requires x == 256 * q + r && 0 <= r < 256
    ensures x / 256 == q && x % 256 == r
  {
  }

  /**
   * Writing the bytes back together gives the low 24 bits of `hex`, which
   * is `hex & 0xFFFFFF` in two's complement.
   */
  lemma {:induction false} Recombine(hex: int)
    ensures ToHex(Bytes(hex)) == hex % 0x100_0000
  {
    var q0 := hex / 256;
    var q1 := q0 / 256;
    BytesAsQuotients(hex);
    assert hex == 0x100_0000 * (q1 / 256) + ((q1 % 256) * 65536 + (q0 % 256) * 256 + hex % 256);
    DivMod24Bits(hex, q1 / 256, (q1 % 256) * 65536 + (q0 % 256) * 256 + hex % 256);
  }

  /** The channels are the low bytes of `hex` divided by 256 twice, once and not at all. */
  lemma BytesAsQuotients(hex: int)
    ensures Bytes(hex) == Rgb(hex / 256 / 256 % 256, hex / 256 % 256, hex % 256)
  {
    ShiftOnce(hex);
    ShiftTwice(hex);
  }

  /** `x` divided by 2^24 with remainder is unique. */
  lemma DivMod24Bits(x: int, q: int, r: int)
    requires x == 0x100_0000 * q + r && 0 <= r < 0x100_0000
    ensures x % 0x100_0000 == r
  {
  }

  /** Bits above the low 24 do not reach any channel. */
  lemma {:induction false} HighBitsIgnored(hex: int, k: int)
    ensures Bytes(hex + k * 0x100_0000) == Bytes(hex)
  {
    var h := hex + k * 0x100_0000;
    var q0 := hex / 256;
    var q1 := q0 / 256;
    DivMod256(h, q0 + k * 65536, hex % 256);
    DivMod256(q0 + k * 65536, q1 + k * 256, q0 % 256);
    DivMod256(q1 + k * 256, q1 / 256 + k, q1 % 256);
  }

  /** Every byte triple is what its own `0xRRGGBB` integer decodes to. */
  lemma {:induction false} BytesOfToHex(c: Rgb)
    requires ValidRgb(c)
    ensures Bytes(ToHex(c)) == c
  {
    var h := ToHex(c);
    DivMod256(h, c.red * 256 + c.green, c.blue);
    DivMod256(c.red * 256 + c.green, c.red, c.green);
    DivMod256(c.red, 0, c.red);
  }

  /** The decoded colour is determined by the low 24 bits alone, and distinct low bits give distinct colours. */
  lemma {:induction false} FromHexDependsOnLowBits(hex: int, hex': int)
    ensures FromHex(hex) == FromHex(hex') <==> hex % 0x100_0000 == hex' % 0x100_0000
  {
    Recombine(hex);
    Recombine(hex');
    if hex % 0x100_0000 == hex' % 0x100_0000 {
      var k := hex' / 0x100_0000 - hex / 0x100_0000;
      assert hex' == hex + k * 0x100_0000;
      HighBitsIgnored(hex, k);
    }
  }
}

=== FILE: colors.dfy ===
/** Colours as UIKit receives them: four channels in [0, 1]. */
module Colors {

  /** A colour with channels in [0, 1], as `UIColor(red:green:blue:alpha:)` receives them. */
  datatype Color = Color(red: real, green: real, blue: real, alpha: real)

  /** `UIColor.clear`. */
  const Clear: Color := Color(0.0, 0.0, 0.0, 0.0)

  /** `UIColor.black`. */
  const Black: Color := Color(0.0, 0.0, 0.0, 1.0)
}

=== FILE: geometry.dfy ===
/**
 * The UIKit / Core Graphics vocabulary shared by every view of the model:
 * rectangles and edge insets over `real` (CGFloat), the rounding function
 * the text field applies to measured lengths, the interface layout
 * direction and `NSTextAlignment`.
 */
module Geometry {

  /** `CGPoint`. */
  datatype Point = Point(x: real, y: real)

  /** `CGSize`. */
  datatype Size = Size(width: real, height: real)

  /** `CGRect`, by origin and size (no standardisation of negative sizes). */
  datatype Rect = Rect(x: real, y: real, width: real, height: real) {

    function MinX(): real { x }

    function MaxX(): real { x + width }

    function MinY(): real { y }

    function MaxY(): real { y + height }
  }

  /** `UIEdgeInsets`. */
  datatype EdgeInsets = EdgeInsets(top: real, left: real, bottom: real, right: real)

  const ZeroInsets := EdgeInsets(0.0, 0.0, 0.0, 0.0)

  /**
   * `CGRect.inset(by:)`: the origin moves in by the top and left insets and
   * the size shrinks by the sum of the opposite insets. Nothing is clamped.
   */
  function Inset(b: Rect, e: EdgeInsets): (r: Rect)
    ensures r.MinX() == b.MinX() + e.left && r.MaxX() == b.MaxX() - e.right
    ensures r.MinY() == b.MinY() + e.top && r.MaxY() == b.MaxY() - e.bottom
  {
    Rect(b.x + e.left, b.y + e.top, b.width - (e.left + e.right), b.height - (e.top + e.bottom))
  }

  /** Insetting by `.zero` leaves every rectangle as it is. */
  lemma InsetByZero(b: Rect)
    ensures Inset(b, ZeroInsets) == b
  {
  }

  /** `ceil` on CGFloat: the least integer not below `x`. */
  function Ceil(x: real): (r: int)
    ensures x <= r as real < x + 1.0
  {
    -((-x).Floor)
  }

  /** `Ceil` is the identity on whole numbers. */
  lemma CeilOfInt(n: int)
    ensures Ceil(n as real) == n
  {
  }

  /** Adding a whole number commutes with `Ceil`. */
  lemma CeilShift(x: real, n: int)
    ensures Ceil(x + n as real) == Ceil(x) + n
  {
    var c := Ceil(x);
    // c + n is an integer not below x + n, and c + n - 1 lies below it.
    assert (c + n) as real >= x + n as real;
    assert (c + n - 1) as real < x + n as real;
  }

  /** `UIUserInterfaceLayoutDirection`. */
  datatype LayoutDirection = LeftToRight | RightToLeft

  /**
   * `NSTextAlignment`. `Unknown` stands for a case added to the SDK after the
   * source was written, which `@unknown default` clauses have to handle.
   */
  datatype TextAlignment = Left | Center | Right | Justified | Natural | Unknown(rawValue: int)

  /** A physical horizontal side of a view. */
  datatype Side = LeftSide | RightSide

  /** The physical side a leading (or, if `!leading`, trailing) anchor sits on. */
  function SideOf(leading: bool, dir: LayoutDirection): (s: Side)
    ensures (s == LeftSide) <==> (leading == (dir == LeftToRight))
  {
    match dir
    case LeftToRight => if leading then LeftSide else RightSide
    case RightToLeft => if leading then RightSide else LeftSide
  }
}

=== FILE: outline_view.dfy ===
/**
 * `OutlineView`: strokes (and optionally fills) a rectangle along its
 * bounds, optionally inset and with rounded corners, using a shape layer.
 * The path is a pure function of the bounds, insets and corner radius and
 * is rebuilt on every layout pass; the other properties are forwarded to
 * the layer as they are set.
 */
module OutlineView {
  import opened Wrappers
  import opened Geometry
  import opened Colors

  /** `UIBezierPath(rect:)` or `UIBezierPath(roundedRect:cornerRadius:)`. */
  datatype Path = RectPath(rect: Rect) | RoundedRectPath(rect: Rect, cornerRadius: real)

  /** The properties of the backing `CAShapeLayer` the view writes. */
  datatype ShapeLayer = ShapeLayer(
    path: Option<Path>,
    lineWidth: real,
    strokeColor: Option<Color>,
    fillColor: Option<Color>,
    cornerRadius: real)

  /** The view: its bounds, its public properties, its layer and whether a layout pass is pending. */
  datatype Outline = Outline(
    bounds: Rect,
    outlineInsets: EdgeInsets,
    lineWidth: real,
    lineColor: Option<Color>,
    fillColor: Option<Color>,
    cornerRadius: real,
    backgroundColor: Option<Color>,
    layer: ShapeLayer,
    needsLayout: bool)

  /**
   * The view after `init(frame:)` and `commonInit()`, as written: the
   * properties hold their declared defaults, but property initialisers do not
   * run `didSet`, so the layer keeps its own defaults (no stroke colour, a
   * line width of 1) except for the fill colour `commonInit` clears.
   */
  function Initial(bounds: Rect): (o: Outline)
    ensures o.layer.fillColor == None && o.backgroundColor == Some(Clear)
    ensures o.layer.path == None && o.needsLayout
    ensures o.lineColor == Some(Black) && o.layer.strokeColor == None
  {
    Outline(bounds, ZeroInsets, 1.0, Some(Black), Some(Clear), 0.0, Some(Clear),
            ShapeLayer(None, 1.0, None, None, 0.0), true)
  }

  /** The initial state with the layer's stroke colour taken from the `lineColor` default. */
  function InitialCorrected(bounds: Rect): (o: Outline)
    ensures o.layer.fillColor == None && o.backgroundColor == Some(Clear)
    ensures o.layer.strokeColor == o.lineColor == Some(Black)
    ensures o == Initial(bounds).(layer := o.layer) && o.layer == Initial(bounds).layer.(strokeColor := Some(Black))
  {
    var o := Initial(bounds);
    o.(layer := o.layer.(strokeColor := o.lineColor))
  }

  /**
   * `makePath()`: a plain or rounded rectangle along the bounds inset by
   * `outlineInsets`. Skipping the inset for zero insets is only a shortcut:
   * the rectangle is the inset bounds either way.
   */
  function MakePath(o: Outline): (p: Path)
    ensures p.rect == Inset(o.bounds, o.outlineInsets)
    ensures o.outlineInsets == ZeroInsets ==> p.rect == o.bounds
    ensures p.RoundedRectPath? <==> o.cornerRadius != 0.0
    ensures p.RoundedRectPath? ==> p.cornerRadius == o.cornerRadius
  {
    var rect := if o.outlineInsets != ZeroInsets then Inset(o.bounds, o.outlineInsets) else o.bounds;
    InsetByZero(o.bounds);
    if o.cornerRadius != 0.0 then RoundedRectPath(rect, o.cornerRadius) else RectPath(rect)
  }

  /** `layoutSubviews()`: the layer's path is rebuilt from the current state. */
  function LayoutSubviews(o: Outline): (r: Outline)
    ensures r.layer.path == Some(MakePath(o)) && !r.needsLayout
    ensures r == o.(layer := o.layer.(path := r.layer.path), needsLayout := false)
  {
    o.(layer := o.layer.(path := Some(MakePath(o))), needsLayout := false)
  }

  /** Changes to the view. */
  datatype Event =
    | SetBounds(newBounds: Rect)
    | SetOutlineInsets(newInsets: EdgeInsets)
    | SetLineWidth(newLineWidth: real)
    | SetLineColor(newLineColor: Option<Color>)
    | SetFillColor(newFillColor: Option<Color>)
    | SetCornerRadius(newCornerRadius: real)
    | Layout

  /**
   * One event. Changes of geometry (bounds, insets, corner radius) schedule a
   * layout pass; line width and colours go straight to the layer.
   */
  function Step(o: Outline, e: Event): (r: Outline)
    ensures e.SetLineWidth? ==> r.layer.lineWidth == e.newLineWidth && r.lineWidth == e.newLineWidth
    ensures e.SetLineColor? ==> r.layer.strokeColor == e.newLineColor
    ensures e.SetFillColor? ==> r.layer.fillColor == e.newFillColor
    ensures e.SetCornerRadius? ==> r.layer.cornerRadius == e.newCornerRadius && r.needsLayout
    ensures e.SetBounds? || e.SetOutlineInsets? ==> r.needsLayout
    ensures e.Layout? ==> r.layer.path == Some(MakePath(o))
  {
    match e
    case SetBounds(b) => o.(bounds := b, needsLayout := true)
    case SetOutlineInsets(i) => o.(outlineInsets := i, needsLayout := true)
    case SetLineWidth(w) => o.(lineWidth := w, layer := o.layer.(lineWidth := w))
    case SetLineColor(c) => o.(lineColor := c, layer := o.layer.(strokeColor := c))
    case SetFillColor(c) => o.(fillColor := c, layer := o.layer.(fillColor := c))
    case SetCornerRadius(r) => o.(cornerRadius := r, layer := o.layer.(cornerRadius := r), needsLayout := true)
    case Layout => LayoutSubviews(o)
  }

  function Run(o: Outline, events: seq<Event>): Outline
    decreases |events|
  {
    if events == [] then o else Run(Step(o, events[0]), events[1..])
  }

  /**
   * What the layer shows agrees with the view's properties: the path is the
   * one the current geometry calls for unless a layout pass is pending, and
   * line width, stroke colour and corner radius are forwarded.
   */
  predicate Consistent(o: Outline)
  {
    && (!o.needsLayout ==> o.layer.path == Some(MakePath(o)))
    && o.layer.lineWidth == o.lineWidth
    && o.layer.strokeColor == o.lineColor
    && o.layer.cornerRadius == o.cornerRadius
  }

  lemma StepKeepsConsistent(o: Outline, e: Event)
    requires Consistent(o)
    ensures Consistent(Step(o, e))
  {
  }

  /** From the corrected initial state, every sequence of changes keeps the layer consistent. */
  lemma {:induction false} RunKeepsConsistent(o: Outline, events: seq<Event>)
    requires Consistent(o)
    ensures Consistent(Run(o, events))
    decreases |events|
  {
    if events != [] {
      StepKeepsConsistent(o, events[0]);
      RunKeepsConsistent(Step(o, events[0]), events[1..]);
    }
  }

  lemma CorrectedInitialIsConsistent(bounds: Rect)
    ensures Consistent(InitialCorrected(bounds))
  {
  }

  /**
   * As written, a fresh view strokes its outline in no colour at all until
   * `lineColor` is assigned, although `lineColor` reads `.black`, and a
   * layout pass does not change that.
   */
  lemma AsWrittenInitialStrokeIsUnset(bounds: Rect)
    ensures var o := Run(Initial(bounds), [Layout]);
            o.lineColor == Some(Black) && o.layer.strokeColor == None && !Consistent(o)
  {
  }
}

=== FILE: placeholder_view.dfy ===
/**
 * `PlaceholderView`: hosts the placeholder label outside Auto Layout so that
 * Core Animation can scale it. The label's anchor point follows the text
 * alignment, so the label scales towards the edge its text starts from; a
 * scale animation, while in flight, keeps layout passes from resetting the
 * label's frame.
 *
 * Animations are modelled by the layer's animation dictionary; timing and
 * the interpolated presentation value are outside the model, and the value
 * the presentation layer reports is a parameter.
 */
module PlaceholderView {
  import opened Wrappers
  import opened Geometry

  /** The key under which the scale animation is added to the label's layer. */
  const ScaleAnimationKey: string := "scale"

  /** A layer transform that is a pure scale, `CATransform3DMakeScale(sx, sy, sz)`. */
  datatype Scale3D = Scale3D(sx: real, sy: real, sz: real)

  const Identity := Scale3D(1.0, 1.0, 1.0)

  /** A `CABasicAnimation` of the layer's transform. */
  datatype ScaleAnimation = ScaleAnimation(from: Scale3D, to: Scale3D, duration: real)

  /** The view and its label's layer. */
  datatype View = View(
    bounds: Rect,
    alignment: TextAlignment,
    anchorPoint: Point,
    labelFrame: Rect,
    /** the model value of the label layer's transform */
    transform: Scale3D,
    animations: map<string, ScaleAnimation>)

  /**
   * A fresh view: the label has UIKit's defaults, natural alignment and the
   * anchor at its centre, since initialisation does not move the anchor.
   */
  function Initial(bounds: Rect): (v: View)
    ensures v.transform == Identity && v.animations == map[]
    ensures v.alignment == Natural && v.anchorPoint == Point(0.5, 0.5)
  {
    View(bounds, Natural, Point(0.5, 0.5), Rect(0.0, 0.0, 0.0, 0.0), Identity, map[])
  }

  /**
   * `updateAnchorPoint(of:textAlignment:)`: the anchor sits on the edge the
   * text starts from (the centre for centred text), half-way up; an
   * alignment the source does not know is treated as left-to-right.
   */
  function AnchorPoint(alignment: TextAlignment, dir: LayoutDirection): (p: Point)
    ensures p.y == 0.5
    ensures p.x == 0.0 || p.x == 0.5 || p.x == 1.0
    ensures p.x == 0.5 <==> alignment.Center?
    ensures p.x == 1.0 <==> alignment.Right? || ((alignment.Natural? || alignment.Justified?) && dir.RightToLeft?)
    ensures alignment.Unknown? ==> p.x == 0.0
  {
    match alignment
    case Left => Point(0.0, 0.5)
    case Natural => if dir == LeftToRight then Point(0.0, 0.5) else Point(1.0, 0.5)
    case Justified => if dir == LeftToRight then Point(0.0, 0.5) else Point(1.0, 0.5)
    case Right => Point(1.0, 0.5)
    case Center => Point(0.5, 0.5)
    case Unknown(_) => Point(0.0, 0.5)
  }

  /**
   * Natural and justified text is anchored on the leading edge of the
   * interface direction; left and right text on that physical side whatever
   * the direction.
   */
  lemma AnchorFollowsStartEdge(alignment: TextAlignment, dir: LayoutDirection)
    ensures alignment == Natural || alignment == Justified ==>
              (AnchorPoint(alignment, dir).x == 0.0 <==> SideOf(true, dir) == LeftSide)
    ensures AnchorPoint(Left, dir) == AnchorPoint(Natural, LeftToRight)
    ensures AnchorPoint(Right, dir) == AnchorPoint(Natural, RightToLeft)
  {
  }

  /**
   * Until the `textAlignment` setter first runs, a fresh view's anchor is the
   * centre, not the start edge its natural alignment calls for.
   */
  lemma InitialAnchorIgnoresAlignment(bounds: Rect, dir: LayoutDirection)
    ensures Initial(bounds).anchorPoint != AnchorPoint(Initial(bounds).alignment, dir)
  {
  }

  /** The `textAlignment` setter: stores the alignment, moves the anchor and resets the label's frame. */
  function SetTextAlignment(v: View, alignment: TextAlignment, dir: LayoutDirection): (r: View)
    ensures r.anchorPoint == AnchorPoint(alignment, dir)
    ensures r.labelFrame == v.bounds
    ensures r == v.(alignment := r.alignment, anchorPoint := r.anchorPoint, labelFrame := r.labelFrame)
  {
    v.(alignment := alignment, anchorPoint := AnchorPoint(alignment, dir), labelFrame := v.bounds)
  }

  /** The `textAlignment` getter. */
  function TextAlignmentOf(v: View): TextAlignment
  {
    v.alignment
  }

  /** Reading the alignment back gives what was set, and the anchor agrees with it. */
  lemma TextAlignmentRoundTrip(v: View, alignment: TextAlignment, dir: LayoutDirection)
    ensures var r := SetTextAlignment(v, alignment, dir);
            TextAlignmentOf(r) == alignment && r.anchorPoint == AnchorPoint(TextAlignmentOf(r), dir)
  {
  }

  /** `isAnimating()`: whether a scale animation is attached to the label's layer. */
  predicate IsAnimating(v: View)
  {
    ScaleAnimationKey in v.animations
  }

  /** `layoutSubviews()`: the label fills the view unless a scale animation is in flight. */
  function LayoutSubviews(v: View): (r: View)
    ensures !IsAnimating(v) ==> r == v.(labelFrame := v.bounds)
    ensures IsAnimating(v) ==> r == v
  {
    if !IsAnimating(v) then v.(labelFrame := v.bounds) else v
  }

  /**
   * `scaleLabel(to:animated:duration:)`. `layoutPending` says whether the
   * opening `layoutIfNeeded()` runs a layout pass; `presented` is the
   * transform the presentation layer reports, if there is one. Earlier
   * animations are removed; the new one, if any, starts from the presented
   * value so that a running animation is retargeted without a jump.
   */
  function ScaleLabel(v: View, scale: real, animated: bool, duration: real, layoutPending: bool, presented: Option<Scale3D>): (r: View)
    ensures r.transform == Scale3D(scale, scale, 1.0)
    ensures IsAnimating(r) <==> animated
    ensures animated ==>
              r.animations == map[ScaleAnimationKey := ScaleAnimation(presented.GetOr(v.transform), r.transform, duration)]
    ensures !animated ==> r.animations == map[]
    ensures r.bounds == v.bounds && r.alignment == v.alignment && r.anchorPoint == v.anchorPoint
    ensures r.labelFrame == (if layoutPending && !IsAnimating(v) then v.bounds else v.labelFrame)
  {
    var laidOut := if layoutPending then LayoutSubviews(v) else v;
    var target := Scale3D(scale, scale, 1.0);
    var animations :=
      if animated then map[ScaleAnimationKey := ScaleAnimation(presented.GetOr(laidOut.transform), target, duration)]
      else map[];
    laidOut.(animations := animations, transform := target)
  }

  /** Core Animation removing finished animations from the layer. */
  function CompleteAnimations(v: View): (r: View)
    ensures !IsAnimating(r)
    ensures r.(animations := v.animations) == v
  {
    v.(animations := map[])
  }

  /**
   * Animating only changes the way there: once the animation has finished,
   * an animated and an unanimated scale leave the view in the same state,
   * with the label at the target scale.
   */
  lemma AnimatedScaleEndsLikeInstantScale(v: View, scale: real, duration: real, layoutPending: bool, presented: Option<Scale3D>)
    ensures var animated := CompleteAnimations(ScaleLabel(v, scale, true, duration, layoutPending, presented));
            var instant := ScaleLabel(v, scale, false, duration, layoutPending, presented);
            animated == instant && animated.transform == Scale3D(scale, scale, 1.0)
  {
  }

  /** While the scale animation runs, layout passes leave the label's frame alone; afterwards they reset it. */
  lemma LayoutWaitsForAnimation(v: View, scale: real, duration: real, layoutPending: bool, presented: Option<Scale3D>)
    ensures var r := ScaleLabel(v, scale, true, duration, layoutPending, presented);
            LayoutSubviews(r) == r && LayoutSubviews(CompleteAnimations(r)).labelFrame == v.bounds
  {
  }
}

=== FILE: text_field.dfy ===
/**
 * The state of a `RAGTextField` that decides where its floating placeholder
 * is drawn: the placeholder mode and its decision tables, the clamped scale,
 * the animation switch, the scale-and-translate transform of the scaled
 * position, the hint label, and the update step that moves the placeholder
 * between its base and scaled positions, together with the events (text,
 * focus and property changes, layout passes) that drive it.
 *
 * The first-responder status, the interface layout direction, the measured
 * height of the field's font and the width Auto Layout gives the placeholder
 * label are fields of the record; each is supplied from outside.
 */
module TextField {
  import opened Wrappers
  import opened Geometry
  import PV = PlaceholderView

  /** The placeholder animation duration used when none is set. */
  const DefaultPlaceholderAnimationDuration: real := 0.2

  /** `RAGTextFieldPlaceholderMode`. */
  datatype PlaceholderMode = Simple | ScalesWhenEditing | ScalesWhenNotEmpty {

    /** Whether the mode ever moves the placeholder to the scaled position. */
    predicate ScalesPlaceholder()
    {
      match this
      case ScalesWhenEditing => true
      case ScalesWhenNotEmpty => true
      case Simple => false
    }
  }

  /**
   * The model value of the placeholder label's layer transform: the identity
   * (base position), or a uniform scale about the label's centre followed by
   * a translation by whole points (scaled position).
   */
  datatype PlaceholderTransform = BasePosition | ScaledPosition(scale: real, tx: int, ty: int)

  /** The hint label: its text and whether it is hidden. */
  datatype HintLabel = HintLabel(text: string, isHidden: bool)

  /**
   * What the update step writes: the placeholder label's layer transform and
   * hidden flag, and the cached `isPlaceholderTransformedToScaledPosition`,
   * which records the last position the placeholder was animated to.
   */
  datatype PlaceholderState = PlaceholderState(
    transform: PlaceholderTransform,
    isHidden: bool,
    isTransformedToScaledPosition: bool)

  /** The state of one text field that the placeholder logic reads and writes. */
  datatype Field = Field(
    text: Option<string>,
    isFirstResponder: bool,
    mode: PlaceholderMode,
    /** `placeholderScaleWhenEditing` */
    scale: real,
    /** `scaledPlaceholderOffset` */
    offset: real,
    /** `placeholderAnimationDuration`; `None` means the default duration */
    animationDuration: Option<real>,
    alignment: TextAlignment,
    horizontalTextPadding: real,
    verticalTextPadding: real,
    /** raw bounding height of the measurement string in the field's `font` */
    textGlyphHeight: real,
    /** `placeholderLabel.bounds.width`, as the last layout pass left it */
    labelWidth: real,
    /** `UIApplication.shared.userInterfaceLayoutDirection` */
    direction: LayoutDirection,
    hint: HintLabel,
    placeholder: PlaceholderState,
    /** `needsUpdateOfPlaceholderTransformAfterLayout` */
    needsTransformUpdateAfterLayout: bool)

  /** A field with text in it; `nil` and the empty string both count as empty. */
  predicate HasText(text: Option<string>)
  {
    text != None && text.value != ""
  }

  /** `shouldDisplayScaledPlaceholder()`: the placeholder mode table. */
  function ShouldDisplayScaledPlaceholder(mode: PlaceholderMode, text: Option<string>, isFirstResponder: bool): (r: bool)
    ensures mode == Simple ==> !r
    ensures mode == ScalesWhenNotEmpty ==> (r <==> HasText(text))
    ensures mode == ScalesWhenEditing ==> (r <==> HasText(text) || isFirstResponder)
    ensures r ==> mode.ScalesPlaceholder()
  {
    match mode
    case ScalesWhenEditing => (text.Some? && |text.value| > 0) || isFirstResponder
    case ScalesWhenNotEmpty => text.Some? && |text.value| > 0
    case Simple => false
  }

  /** `shouldDisplayPlaceholder()`: whether the placeholder label is visible at all. */
  function ShouldDisplayPlaceholder(mode: PlaceholderMode, text: Option<string>): (r: bool)
    ensures mode.ScalesPlaceholder() ==> r
    ensures mode == Simple ==> (r <==> !HasText(text))
  {
    match mode
    case ScalesWhenEditing => true
    case ScalesWhenNotEmpty => true
    case Simple => text.None? || |text.value| == 0
  }

  /** A scaled placeholder is always a visible one. */
  lemma ScaledPlaceholderIsDisplayed(mode: PlaceholderMode, text: Option<string>, isFirstResponder: bool)
    ensures ShouldDisplayScaledPlaceholder(mode, text, isFirstResponder) ==> ShouldDisplayPlaceholder(mode, text)
  {
  }

  /** Both decisions treat a `nil` text exactly like an empty one. */
  lemma NilTextCountsAsEmpty(mode: PlaceholderMode, isFirstResponder: bool)
    ensures ShouldDisplayScaledPlaceholder(mode, None, isFirstResponder) == ShouldDisplayScaledPlaceholder(mode, Some(""), isFirstResponder)
    ensures ShouldDisplayPlaceholder(mode, None) == ShouldDisplayPlaceholder(mode, Some(""))
  {
  }

  /**
   * `.scalesWhenEditing` scales in every situation `.scalesWhenNotEmpty`
   * does, and in addition while the field is focused.
   */
  lemma EditingModeScalesMore(text: Option<string>, isFirstResponder: bool)
    ensures ShouldDisplayScaledPlaceholder(ScalesWhenNotEmpty, text, isFirstResponder)
            ==> ShouldDisplayScaledPlaceholder(ScalesWhenEditing, text, isFirstResponder)
    ensures ShouldDisplayScaledPlaceholder(ScalesWhenEditing, text, isFirstResponder)
            && !ShouldDisplayScaledPlaceholder(ScalesWhenNotEmpty, text, isFirstResponder)
            ==> isFirstResponder && !HasText(text)
  {
  }

  /** The value `placeholderScaleWhenEditing` keeps after a write of `v`. */
  function ClampedScale(v: real): (r: real)
    ensures r >= 0.0
    ensures v >= 0.0 ==> r == v
    ensures v < 0.0 ==> r == 0.0
  {
    if v < 0.0 then 0.0 else v
  }

  /** Writing the stored scale back changes nothing, and there is no upper bound. */
  lemma ClampedScaleIdempotent(v: real)
    ensures ClampedScale(ClampedScale(v)) == ClampedScale(v)
    ensures v > 1.0 ==> ClampedScale(v) > 1.0
  {
  }

  /** `animatesPlaceholder`: only an explicit non-positive duration disables the animation. */
  function AnimatesPlaceholder(duration: Option<real>): (r: bool)
    ensures duration == None ==> r
    ensures duration != None ==> (r <==> duration.value > 0.0)
  {
    duration.GetOr(DefaultPlaceholderAnimationDuration) > 0.0
  }

  /** `measureTextHeight()`: a measured height, rounded up to whole points. */
  function MeasureTextHeight(raw: real): (h: int)
    ensures raw <= h as real < raw + 1.0
  {
    Ceil(raw)
  }

  /** Placeholder text that starts at the label's left edge: `.left`, or natural or justified text left to right. */
  predicate StartsAtLeft(alignment: TextAlignment, dir: LayoutDirection)
  {
    alignment.Left? || ((alignment.Natural? || alignment.Justified?) && dir == LeftToRight)
  }

  /** Placeholder text that starts at the label's right edge: `.right`, or natural or justified text right to left. */
  predicate StartsAtRight(alignment: TextAlignment, dir: LayoutDirection)
  {
    alignment.Right? || ((alignment.Natural? || alignment.Justified?) && dir == RightToLeft)
  }

  /**
   * The horizontal translation of the scaled position, before rounding.
   * Scaling about the centre moves both edges of the label inwards by
   * half the width it loses; the translation moves the edge the text starts
   * from back where it was (centred text stays centred). An alignment the
   * switch does not list gets no translation.
   */
  function HorizontalTranslation(f: Field): (tx: real)
    ensures StartsAtLeft(f.alignment, f.direction) ==> (f.labelWidth - f.scale * f.labelWidth) / 2.0 + tx == 0.0
    ensures StartsAtRight(f.alignment, f.direction) ==> (f.labelWidth + f.scale * f.labelWidth) / 2.0 + tx == f.labelWidth
    ensures f.alignment.Center? || f.alignment.Unknown? ==> tx == 0.0
  {
    var shift := Shift(f.scale, f.labelWidth);
    match f.alignment
    case Left => -shift
    case Right => shift
    case Center => 0.0
    case Justified => if f.direction == LeftToRight then -shift else shift
    case Natural => if f.direction == LeftToRight then -shift else shift
    case Unknown(_) => 0.0
  }

  /** How far scaling by `scale` about the centre moves each edge of a label `w` wide: `0.5 (1 - s) w`. */
  function Shift(scale: real, w: real): real
  {
    0.5 * (1.0 - scale) * w
  }

  /**
   * The vertical translation of the scaled position, before rounding. For a
   * label one measured line `H` high, scaling about the centre lowers its
   * top edge by `(H - s H) / 2`; with the translation, the bottom edge of the
   * scaled label ends `verticalTextPadding + scaledPlaceholderOffset` above
   * where the top edge of the unscaled label was.
   */
  function VerticalTranslation(f: Field): (ty: real)
    ensures var h := MeasureTextHeight(f.textGlyphHeight) as real;
            (h - f.scale * h) / 2.0 + ty + f.scale * h == -(f.verticalTextPadding + f.offset)
  {
    -Lift(f.scale, MeasureTextHeight(f.textGlyphHeight) as real) - f.verticalTextPadding - f.offset
  }

  /** The part of the vertical translation due to the scale: `(0.5 + 0.5 s) h`. */
  function Lift(scale: real, h: real): real
  {
    (0.5 + 0.5 * scale) * h
  }

  /** `placeholderTransformForScaledPosition()`: the scale, then both translations rounded up to whole points. */
  function ScaledTransform(f: Field): (t: PlaceholderTransform)
    ensures t.ScaledPosition? && t.scale == f.scale
    ensures HorizontalTranslation(f) <= t.tx as real < HorizontalTranslation(f) + 1.0
    ensures VerticalTranslation(f) <= t.ty as real < VerticalTranslation(f) + 1.0
  {
    ScaledPosition(f.scale, Ceil(HorizontalTranslation(f)), Ceil(VerticalTranslation(f)))
  }

  /**
   * The translation pins the same point of the label that the standalone
   * placeholder view pins with its anchor point: the start edge of the text,
   * or the centre of centred text.
   */
  lemma TranslationKeepsAnchorPoint(f: Field)
    requires !f.alignment.Unknown?
    ensures var w := f.labelWidth;
            var a := PV.AnchorPoint(f.alignment, f.direction).x;
            w / 2.0 + f.scale * (a * w - w / 2.0) + HorizontalTranslation(f) == a * w
  {
    var w := f.labelWidth;
    var a := PV.AnchorPoint(f.alignment, f.direction).x;
    if a == 0.0 {
      assert StartsAtLeft(f.alignment, f.direction);
    } else if a == 1.0 {
      assert StartsAtRight(f.alignment, f.direction);
    } else {
      assert f.alignment.Center?;
    }
  }

  /** Adding `n` whole points of vertical padding lifts the scaled placeholder by exactly `n`, and moves it no other way. */
  lemma PaddingLiftsScaledPlaceholder(f: Field, n: int)
    ensures var g := f.(verticalTextPadding := f.verticalTextPadding + n as real);
            ScaledTransform(g) == ScaledTransform(f).(ty := ScaledTransform(f).ty - n)
  {
    var g := f.(verticalTextPadding := f.verticalTextPadding + n as real);
    assert VerticalTranslation(g) == VerticalTranslation(f) + (-n) as real;
    CeilShift(VerticalTranslation(f), -n);
  }

  /** `expectedPlaceholderTransform()`. */
  function ExpectedTransform(f: Field): (t: PlaceholderTransform)
    ensures t != BasePosition <==> ShouldDisplayScaledPlaceholder(f.mode, f.text, f.isFirstResponder)
    ensures t != BasePosition ==> t == ScaledTransform(f)
  {
    if ShouldDisplayScaledPlaceholder(f.mode, f.text, f.isFirstResponder) then ScaledTransform(f) else BasePosition
  }

  /**
   * The expected transform reads the text, focus, mode, scale, offset,
   * alignment, vertical padding, font height, label width and direction, and
   * nothing else of the field.
   */
  lemma ExpectedTransformInputs(f: Field, g: Field)
    requires f.text == g.text && f.isFirstResponder == g.isFirstResponder && f.mode == g.mode
    requires f.scale == g.scale && f.offset == g.offset && f.alignment == g.alignment
    requires f.verticalTextPadding == g.verticalTextPadding && f.textGlyphHeight == g.textGlyphHeight
    requires f.labelWidth == g.labelWidth && f.direction == g.direction
    ensures ExpectedTransform(f) == ExpectedTransform(g)
  {
    assert HorizontalTranslation(f) == HorizontalTranslation(g);
    assert VerticalTranslation(f) == VerticalTranslation(g);
    assert ScaledTransform(f) == ScaledTransform(g);
  }

  /** The result of an update: the new placeholder state and the target of the animation it started, if any. */
  datatype Update = Update(placeholder: PlaceholderState, animatedTo: Option<PlaceholderTransform>)

  /**
   * `updatePlaceholderTransform(animated:)` as written. When the animation is
   * disabled it sets the expected transform and returns before the
   * visibility of the placeholder is updated.
   */
  function UpdatePlaceholderTransform(f: Field, animated: bool): (u: Update)
    ensures u.placeholder.transform == ExpectedTransform(f)
    ensures u.animatedTo != None ==> u.animatedTo.value == u.placeholder.transform
    ensures !AnimatesPlaceholder(f.animationDuration) ==>
              u == Update(f.placeholder.(transform := ExpectedTransform(f)), None)
    ensures AnimatesPlaceholder(f.animationDuration) ==>
              && (u.animatedTo != None <==>
                    animated && ShouldDisplayScaledPlaceholder(f.mode, f.text, f.isFirstResponder) != f.placeholder.isTransformedToScaledPosition)
              && u.placeholder.isTransformedToScaledPosition ==
                   (if animated then ShouldDisplayScaledPlaceholder(f.mode, f.text, f.isFirstResponder)
                    else f.placeholder.isTransformedToScaledPosition)
              && u.placeholder.isHidden == !ShouldDisplayPlaceholder(f.mode, f.text)
  {
    var p := f.placeholder;
    if !AnimatesPlaceholder(f.animationDuration) then
      Update(p.(transform := ExpectedTransform(f)), None)
    else
      var scaled := ShouldDisplayScaledPlaceholder(f.mode, f.text, f.isFirstResponder);
      var moved :=
        if animated && scaled && !p.isTransformedToScaledPosition then
          Update(p.(transform := ScaledTransform(f), isTransformedToScaledPosition := true), Some(ScaledTransform(f)))
        else if animated && !scaled && p.isTransformedToScaledPosition then
          Update(p.(transform := BasePosition, isTransformedToScaledPosition := false), Some(BasePosition))
        else
          Update(p.(transform := ExpectedTransform(f)), None);
      moved.(placeholder := moved.placeholder.(isHidden := !ShouldDisplayPlaceholder(f.mode, f.text)))
  }

  /**
   * `updatePlaceholderTransform(animated:)` with the visibility of the
   * placeholder updated on the non-animating path as well.
   */
  function UpdatePlaceholderTransformCorrected(f: Field, animated: bool): (u: Update)
    ensures u.placeholder.transform == ExpectedTransform(f)
    ensures u.placeholder.isHidden == !ShouldDisplayPlaceholder(f.mode, f.text)
    ensures u.animatedTo == UpdatePlaceholderTransform(f, animated).animatedTo
    ensures u.placeholder.isTransformedToScaledPosition
            == UpdatePlaceholderTransform(f, animated).placeholder.isTransformedToScaledPosition
  {
    var u := UpdatePlaceholderTransform(f, animated);
    u.(placeholder := u.placeholder.(isHidden := !ShouldDisplayPlaceholder(f.mode, f.text)))
  }

  /**
   * A second animated update with nothing changed in between starts no
   * animation and changes nothing: the cache keeps the placeholder from
   * animating twice.
   */
  lemma RepeatedUpdateDoesNotAnimate(f: Field)
    ensures var g := f.(placeholder := UpdatePlaceholderTransform(f, true).placeholder);
            UpdatePlaceholderTransform(g, true) == Update(g.placeholder, None)
  {
    var g := f.(placeholder := UpdatePlaceholderTransform(f, true).placeholder);
    ExpectedTransformInputs(f, g);
  }

  /** The `hint` setter. */
  function SetHint(f: Field, hint: Option<string>): (g: Field)
    ensures g.hint.isHidden <==> hint == None
    ensures g.needsTransformUpdateAfterLayout
    ensures g == f.(hint := g.hint, needsTransformUpdateAfterLayout := true)
  {
    var hintLabel := if hint == None then HintLabel("", true) else HintLabel(hint.value, false);
    f.(hint := hintLabel, needsTransformUpdateAfterLayout := true)
  }

  /** The `hint` getter: the text of the hint label, never `nil`. */
  function Hint(f: Field): Option<string>
  {
    Some(f.hint.text)
  }

  /** Writing a hint and reading it back: a string comes back as written, `nil` comes back as `""`. */
  lemma HintRoundTrip(f: Field, hint: Option<string>)
    ensures Hint(SetHint(f, hint)) == Some(hint.GetOr(""))
  {
  }

  /** The `placeholderScaleWhenEditing` setter. */
  function SetScale(f: Field, v: real): (g: Field)
    ensures g.scale >= 0.0 && (v >= 0.0 ==> g.scale == v)
    ensures g == f.(scale := g.scale, needsTransformUpdateAfterLayout := true)
  {
    f.(scale := ClampedScale(v), needsTransformUpdateAfterLayout := true)
  }

  /**
   * The state of a freshly initialised field (`init` followed by
   * `commonInit`) in an interface of direction `dir` whose font measures
   * `textGlyphHeight`: the placeholder label has not been laid out yet.
   */
  function InitialField(dir: LayoutDirection, textGlyphHeight: real): (f: Field)
    ensures f.hint.isHidden && Hint(f) == Some("")
    ensures f.mode == ScalesWhenNotEmpty && f.scale == 1.0 && f.animationDuration == None
    ensures f.placeholder == PlaceholderState(BasePosition, false, false)
    ensures f.labelWidth == 0.0 && f.direction == dir && f.textGlyphHeight == textGlyphHeight
    ensures f.needsTransformUpdateAfterLayout
    ensures f.text == Some("") && !f.isFirstResponder && f.alignment == Natural
    ensures f.offset == 0.0 && f.horizontalTextPadding == 0.0 && f.verticalTextPadding == 0.0
  {
    var f := Field(Some(""), false, ScalesWhenNotEmpty, 1.0, 0.0, None, Natural, 0.0, 0.0,
                   textGlyphHeight, 0.0, dir,
                   HintLabel("", false), PlaceholderState(BasePosition, false, false), true);
    SetHint(f, None)
  }

  /**
   * The inputs that change a field's placeholder state. A text or focus
   * change runs `layoutIfNeeded()` before it updates the placeholder;
   * `pendingLayout` is `Some(w)` when a layout pass is pending then, `w`
   * being the width that pass gives the placeholder label.
   */
  datatype Event =
    | SetText(newText: Option<string>, pendingLayout: Option<real>)   // programmatic `text` assignment
    | TextDidChange(edited: string, pendingLayout: Option<real>)      // the user edited the text
    | BecomeFirstResponder(granted: bool, pendingLayout: Option<real>) // `granted`: the result of the superclass call
    | ResignFirstResponder(granted: bool, pendingLayout: Option<real>)
    | SetHintText(newHint: Option<string>)
    | SetPlaceholderScale(newScale: real)
    | SetScaledPlaceholderOffset(newOffset: real)
    | SetPlaceholderMode(newMode: PlaceholderMode)
    | SetPlaceholderAnimationDuration(duration: Option<real>)
    | SetTextAlignment(newAlignment: TextAlignment)
    | SetFont(newGlyphHeight: real)                                    // measured height of the new font
    | SetHorizontalTextPadding(newHorizontalPadding: real)
    | SetVerticalTextPadding(newVerticalPadding: real)
    | LayoutSubviews(newLabelWidth: real)                              // the width Auto Layout gives the label

  /**
   * Which update step the event machine uses. `Corrected` also makes the
   * field's font, vertical padding and label width schedule a placeholder
   * update, and sets the visibility on every path of the update step.
   */
  datatype UpdateRule = AsWritten | Corrected

  /** Runs the chosen update step and stores its result in the field. */
  function UpdateWith(rule: UpdateRule, f: Field, animated: bool): (u: (Field, Option<PlaceholderTransform>))
    ensures u.0 == f.(placeholder := u.0.placeholder)
    ensures u.0.placeholder.transform == ExpectedTransform(f) == ExpectedTransform(u.0)
    ensures rule == Corrected ==> u.0.placeholder.isHidden == !ShouldDisplayPlaceholder(f.mode, f.text)
  {
    var r := match rule
      case AsWritten => UpdatePlaceholderTransform(f, animated)
      case Corrected => UpdatePlaceholderTransformCorrected(f, animated);
    ExpectedTransformInputs(f, f.(placeholder := r.placeholder));
    (f.(placeholder := r.placeholder), r.animatedTo)
  }

  /**
   * `layoutSubviews()`: Auto Layout gives the placeholder label width `w`,
   * then a pending placeholder update runs, unanimated, and is cleared. The
   * corrected rule also runs the update when the width changed.
   */
  function LayoutPass(rule: UpdateRule, f: Field, w: real): (g: Field)
    ensures g.labelWidth == w && !g.needsTransformUpdateAfterLayout
    ensures f.needsTransformUpdateAfterLayout || (rule == Corrected && w != f.labelWidth) ==>
              g.placeholder.transform == ExpectedTransform(g)
              && (rule == Corrected ==> g.placeholder.isHidden == !ShouldDisplayPlaceholder(g.mode, g.text))
    ensures !f.needsTransformUpdateAfterLayout && (rule == AsWritten || w == f.labelWidth) ==>
              g == f.(labelWidth := w)
  {
    var laidOut := f.(labelWidth := w);
    if f.needsTransformUpdateAfterLayout || (rule == Corrected && w != f.labelWidth) then
      var g := UpdateWith(rule, laidOut, false).0;
      ExpectedTransformInputs(g, g.(needsTransformUpdateAfterLayout := false));
      g.(needsTransformUpdateAfterLayout := false)
    else
      laidOut
  }

  /** `layoutIfNeeded()`: a layout pass if one is pending, nothing otherwise. */
  function LayoutIfNeeded(rule: UpdateRule, f: Field, pendingLayout: Option<real>): Field
  {
    if pendingLayout.Some? then LayoutPass(rule, f, pendingLayout.value) else f
  }

  /**
   * One event. Text and focus changes update the placeholder at once, after
   * any pending layout pass (user edits and focus changes animated,
   * programmatic text not); most property changes defer the update to the
   * next layout pass; the font and the paddings, as written, only ask for new
   * constraints.
   */
  function Step(rule: UpdateRule, f: Field, e: Event): (u: (Field, Option<PlaceholderTransform>))
    ensures e.SetText? || e.TextDidChange? || e.BecomeFirstResponder? || e.ResignFirstResponder? ==>
              u.0.placeholder.transform == ExpectedTransform(u.0)
    ensures e.LayoutSubviews? ==> !u.0.needsTransformUpdateAfterLayout && u.0.labelWidth == e.newLabelWidth
    ensures e.SetFont? || e.SetVerticalTextPadding? ==>
              (u.0.needsTransformUpdateAfterLayout <==> f.needsTransformUpdateAfterLayout || rule == Corrected)
    ensures u.1 != None ==> e.TextDidChange? || e.BecomeFirstResponder? || e.ResignFirstResponder?
  {
    match e
    case SetText(t, pending) => UpdateWith(rule, LayoutIfNeeded(rule, f.(text := t), pending), false)
    case TextDidChange(t, pending) => UpdateWith(rule, LayoutIfNeeded(rule, f.(text := Some(t)), pending), true)
    case BecomeFirstResponder(granted, pending) =>
      UpdateWith(rule, LayoutIfNeeded(rule, f.(isFirstResponder := f.isFirstResponder || granted), pending), true)
    case ResignFirstResponder(granted, pending) =>
      UpdateWith(rule, LayoutIfNeeded(rule, f.(isFirstResponder := f.isFirstResponder && !granted), pending), true)
    case SetHintText(h) => (SetHint(f, h), None)
    case SetPlaceholderScale(v) => (SetScale(f, v), None)
    case SetScaledPlaceholderOffset(o) => (f.(offset := o, needsTransformUpdateAfterLayout := true), None)
    case SetPlaceholderMode(m) => (f.(mode := m, needsTransformUpdateAfterLayout := true), None)
    case SetPlaceholderAnimationDuration(d) => (f.(animationDuration := d), None)
    case SetTextAlignment(a) => (f.(alignment := a, needsTransformUpdateAfterLayout := true), None)
    case SetFont(h) =>
      (f.(textGlyphHeight := h, needsTransformUpdateAfterLayout := f.needsTransformUpdateAfterLayout || rule == Corrected), None)
    case SetHorizontalTextPadding(p) => (f.(horizontalTextPadding := p), None)
    case SetVerticalTextPadding(p) =>
      (f.(verticalTextPadding := p, needsTransformUpdateAfterLayout := f.needsTransformUpdateAfterLayout || rule == Corrected), None)
    case LayoutSubviews(w) => (LayoutPass(rule, f, w), None)
  }

  /** The placeholder shows what the state calls for, unless a layout pass is still pending. */
  predicate Synced(f: Field)
  {
    !f.needsTransformUpdateAfterLayout ==>
      && f.placeholder.transform == ExpectedTransform(f)
      && f.placeholder.isHidden == !ShouldDisplayPlaceholder(f.mode, f.text)
  }

  /** The weaker invariant that only speaks about the transform. */
  predicate TransformSynced(f: Field)
  {
    !f.needsTransformUpdateAfterLayout ==> f.placeholder.transform == ExpectedTransform(f)
  }

  /**
   * The events that change an input of the scaled transform without, as
   * written, scheduling a placeholder update: a new font, a new vertical
   * padding, and a layout pass that resizes the label.
   */
  predicate MovesScaledPlaceholder(f: Field, e: Event)
  {
    e.SetFont? || e.SetVerticalTextPadding? || (e.LayoutSubviews? && e.newLabelWidth != f.labelWidth)
  }

  /** The state after a sequence of events. */
  function Run(rule: UpdateRule, f: Field, events: seq<Event>): Field
    decreases |events|
  {
    if events == [] then f else Run(rule, Step(rule, f, events[0]).0, events[1..])
  }

  /**
   * With either update step, every event other than those that move the
   * scaled placeholder keeps the transform the expected one whenever no
   * layout pass is pending.
   */
  lemma StepKeepsTransformSynced(rule: UpdateRule, f: Field, e: Event)
    requires TransformSynced(f)
    requires rule == Corrected || !MovesScaledPlaceholder(f, e)
    ensures TransformSynced(Step(rule, f, e).0)
  {
    var g := Step(rule, f, e).0;
    match e
    case SetPlaceholderAnimationDuration(_) => ExpectedTransformInputs(f, g);
    case SetHorizontalTextPadding(_) => ExpectedTransformInputs(f, g);
    case _ =>
  }

  lemma StepKeepsSynced(f: Field, e: Event)
    requires Synced(f)
    ensures Synced(Step(Corrected, f, e).0)
  {
    var g := Step(Corrected, f, e).0;
    match e
    case SetPlaceholderAnimationDuration(_) => ExpectedTransformInputs(f, g);
    case SetHorizontalTextPadding(_) => ExpectedTransformInputs(f, g);
    case _ =>
  }

  /**
   * With the corrected update step, both the transform and the visibility of
   * the placeholder are the expected ones whenever no layout pass is
   * pending, whatever the events, from any such field (a fresh one included,
   * its first layout pass being pending).
   */
  lemma {:induction false} RunKeepsSynced(f: Field, events: seq<Event>)
    requires Synced(f)
    ensures Synced(Run(Corrected, f, events))
    decreases |events|
  {
    if events != [] {
      StepKeepsSynced(f, events[0]);
      RunKeepsSynced(Step(Corrected, f, events[0]).0, events[1..]);
    }
  }

  /** A run of four events is four steps. */
  lemma RunOfFour(rule: UpdateRule, f: Field, a: Event, b: Event, c: Event, d: Event)
    ensures Run(rule, f, [a, b, c, d])
            == Step(rule, Step(rule, Step(rule, Step(rule, f, a).0, b).0, c).0, d).0
  {
    var f1 := Step(rule, f, a).0;
    var f2 := Step(rule, f1, b).0;
    var f3 := Step(rule, f2, c).0;
    assert [a, b, c, d][1..] == [b, c, d];
    assert Run(rule, f, [a, b, c, d]) == Run(rule, f1, [b, c, d]);
    assert [b, c, d][1..] == [c, d];
    assert Run(rule, f1, [b, c, d]) == Run(rule, f2, [c, d]);
    assert [c, d][1..] == [d];
    assert Run(rule, f2, [c, d]) == Run(rule, f3, [d]);
    assert [d][1..] == [];
    assert Run(rule, f3, [d]) == Run(rule, Step(rule, f3, d).0, []);
  }

  /**
   * As written, a `.simple` placeholder with the animation switched off stays
   * visible over the text once text is set: the early return skips the
   * visibility update.
   */
  lemma AsWrittenLeavesPlaceholderOverText()
    ensures var f := Run(AsWritten, InitialField(LeftToRight, 10.0),
                         [SetPlaceholderMode(Simple), SetPlaceholderAnimationDuration(Some(0.0)),
                          LayoutSubviews(100.0), SetText(Some("a"), None)]);
            && !f.needsTransformUpdateAfterLayout
            && !f.placeholder.isHidden
            && !ShouldDisplayPlaceholder(f.mode, f.text)
            && !Synced(f)
  {
    var f0 := InitialField(LeftToRight, 10.0);
    RunOfFour(AsWritten, f0, SetPlaceholderMode(Simple), SetPlaceholderAnimationDuration(Some(0.0)),
              LayoutSubviews(100.0), SetText(Some("a"), None));
    var f1 := Step(AsWritten, f0, SetPlaceholderMode(Simple)).0;
    var f2 := Step(AsWritten, f1, SetPlaceholderAnimationDuration(Some(0.0))).0;
    var f3 := Step(AsWritten, f2, LayoutSubviews(100.0)).0;
    assert !f3.placeholder.isHidden && !f3.needsTransformUpdateAfterLayout;
    var f4 := Step(AsWritten, f3, SetText(Some("a"), None)).0;
    assert f4.placeholder.isHidden == f3.placeholder.isHidden;
  }

  /**
   * Setting text on a fresh field in a left-to-right interface, then its
   * first layout pass, leaves the placeholder scaled and up to date with no
   * update pending.
   */
  lemma FirstLayoutScalesPlaceholder()
    ensures var f := Step(AsWritten, Step(AsWritten, InitialField(LeftToRight, 10.0), SetText(Some("a"), None)).0,
                          LayoutSubviews(100.0)).0;
            && f.scale == 1.0 && f.alignment == Natural && f.direction == LeftToRight
            && f.textGlyphHeight == 10.0 && f.verticalTextPadding == 0.0 && f.offset == 0.0
            && f.text == Some("a") && f.mode == ScalesWhenNotEmpty && !f.isFirstResponder && f.labelWidth == 100.0
            && !f.needsTransformUpdateAfterLayout
            && f.placeholder.transform == ScaledPosition(1.0, 0, -10)
  {
    var f0 := InitialField(LeftToRight, 10.0);
    var f1 := Step(AsWritten, f0, SetText(Some("a"), None)).0;
    assert f1 == f0.(text := Some("a"), placeholder := f1.placeholder);
    PendingLayoutUpdatesPlaceholder(f1, 100.0);
    var f2 := Step(AsWritten, f1, LayoutSubviews(100.0)).0;
    assert MeasureTextHeight(10.0) == 10 by { CeilOfInt(10); }
    assert Shift(1.0, 100.0) == 0.0 && Lift(1.0, 10.0) == 10.0;
    assert HorizontalTranslation(f2) == 0.0 && VerticalTranslation(f2) == -10.0;
    CeilOfInt(0);
    CeilOfInt(-10);
  }

  /**
   * As written, raising the vertical padding of a field whose placeholder is
   * scaled leaves the placeholder where it was, 4 points lower than the
   * new padding calls for, through any number of later layout passes.
   */
  lemma AsWrittenPaddingLeavesTransformStale()
    ensures var f := Run(AsWritten, InitialField(LeftToRight, 10.0),
                         [SetText(Some("a"), None), LayoutSubviews(100.0),
                          SetVerticalTextPadding(4.0), LayoutSubviews(100.0)]);
            && !f.needsTransformUpdateAfterLayout
            && f.placeholder.transform == ScaledPosition(1.0, 0, -10)
            && ExpectedTransform(f) == ScaledPosition(1.0, 0, -14)
            && !TransformSynced(f)
  {
    var f0 := InitialField(LeftToRight, 10.0);
    RunOfFour(AsWritten, f0, SetText(Some("a"), None), LayoutSubviews(100.0),
              SetVerticalTextPadding(4.0), LayoutSubviews(100.0));
    FirstLayoutScalesPlaceholder();
    var f2 := Step(AsWritten, Step(AsWritten, f0, SetText(Some("a"), None)).0, LayoutSubviews(100.0)).0;
    PaddingLeavesFullSizeStale(f2);
  }

  /**
   * Raising the vertical padding under an up-to-date placeholder of scale 1,
   * shown above text, from 0 to 4 points and laying out again, as written,
   * keeps the translation computed for no padding.
   */
  lemma PaddingLeavesFullSizeStale(f: Field)
    requires f.scale == 1.0 && f.alignment == Natural && f.direction == LeftToRight
    requires f.textGlyphHeight == 10.0 && f.verticalTextPadding == 0.0 && f.offset == 0.0
    requires f.text == Some("a") && f.mode == ScalesWhenNotEmpty && !f.isFirstResponder && f.labelWidth == 100.0
    requires !f.needsTransformUpdateAfterLayout && f.placeholder.transform == ScaledPosition(1.0, 0, -10)
    ensures var g := Step(AsWritten, Step(AsWritten, f, SetVerticalTextPadding(4.0)).0, LayoutSubviews(100.0)).0;
            && !g.needsTransformUpdateAfterLayout
            && g.placeholder.transform == ScaledPosition(1.0, 0, -10)
            && ExpectedTransform(g) == ScaledPosition(1.0, 0, -14)
            && !TransformSynced(g)
  {
    var g := f.(verticalTextPadding := 4.0);
    assert Step(AsWritten, f, SetVerticalTextPadding(4.0)).0 == g;
    assert Step(AsWritten, g, LayoutSubviews(100.0)).0 == g;
    assert ScaledTransform(g) == ScaledPosition(1.0, 0, -14) by {
      assert MeasureTextHeight(10.0) == 10 by { CeilOfInt(10); }
      assert Shift(1.0, 100.0) == 0.0 && Lift(1.0, 10.0) == 10.0;
      assert HorizontalTranslation(g) == 0.0 && VerticalTranslation(g) == -14.0;
      CeilOfInt(0);
      CeilOfInt(-14);
    }
  }

  /**
   * A layout pass with an update pending, as written, sets the label width,
   * brings the placeholder up to date and clears the flag, and changes
   * nothing else.
   */
  lemma PendingLayoutUpdatesPlaceholder(f: Field, w: real)
    requires f.needsTransformUpdateAfterLayout
    ensures var g := Step(AsWritten, f, LayoutSubviews(w)).0;
            && g == f.(labelWidth := w, placeholder := g.placeholder, needsTransformUpdateAfterLayout := false)
            && g.placeholder.transform == ExpectedTransform(g)
  {
  }

  /** Setting scale 0.5 and then text on a fresh field changes only those two and the placeholder. */
  lemma HalfSizePlaceholderWithText()
    ensures var f0 := InitialField(LeftToRight, 10.0);
            var f := Step(AsWritten, Step(AsWritten, f0, SetPlaceholderScale(0.5)).0, SetText(Some("a"), None)).0;
            f == f0.(scale := 0.5, text := Some("a"), placeholder := f.placeholder)
  {
    var f0 := InitialField(LeftToRight, 10.0);
    var f1 := Step(AsWritten, f0, SetPlaceholderScale(0.5)).0;
    assert f1 == f0.(scale := 0.5);
    var f2 := Step(AsWritten, f1, SetText(Some("a"), None)).0;
    assert f2 == f1.(text := Some("a"), placeholder := f2.placeholder);
  }

  /**
   * The scaled transform of a half-size, natural-aligned placeholder in
   * left-to-right layout, with no padding or offset and a 10-point line,
   * whose label is `100 k` points wide: the text moves `25 k` points left to
   * keep its start edge, and 7 points up.
   */
  lemma NaturalHalfScaleTransform(f: Field, k: int)
    requires f.scale == 0.5 && f.alignment == Natural && f.direction == LeftToRight
    requires f.textGlyphHeight == 10.0 && f.verticalTextPadding == 0.0 && f.offset == 0.0
    requires f.labelWidth == 100.0 * k as real
    ensures ScaledTransform(f) == ScaledPosition(0.5, -25 * k, -7)
  {
    assert MeasureTextHeight(10.0) == 10 by { CeilOfInt(10); }
    assert Shift(0.5, f.labelWidth) == 25.0 * k as real && Lift(0.5, 10.0) == 7.5;
    assert HorizontalTranslation(f) == (-25 * k) as real && VerticalTranslation(f) == -7.5;
    CeilOfInt(-25 * k);
  }

  /**
   * A fresh field in a left-to-right interface with scale 0.5, given text and
   * then its first layout pass at width 100, shows the scaled placeholder up
   * to date with no update pending.
   */
  lemma FirstLayoutScalesHalfSizePlaceholder()
    ensures var f := Step(AsWritten, Step(AsWritten, Step(AsWritten, InitialField(LeftToRight, 10.0),
                                                          SetPlaceholderScale(0.5)).0,
                                          SetText(Some("a"), None)).0,
                          LayoutSubviews(100.0)).0;
            && f.scale == 0.5 && f.alignment == Natural && f.direction == LeftToRight
            && f.textGlyphHeight == 10.0 && f.verticalTextPadding == 0.0 && f.offset == 0.0
            && f.text == Some("a") && f.mode == ScalesWhenNotEmpty && !f.isFirstResponder && f.labelWidth == 100.0
            && !f.needsTransformUpdateAfterLayout
            && f.placeholder.transform == ScaledPosition(0.5, -25, -7)
  {
    var f0 := InitialField(LeftToRight, 10.0);
    var f2 := Step(AsWritten, Step(AsWritten, f0, SetPlaceholderScale(0.5)).0, SetText(Some("a"), None)).0;
    HalfSizePlaceholderWithText();
    PendingLayoutUpdatesPlaceholder(f2, 100.0);
    var f3 := Step(AsWritten, f2, LayoutSubviews(100.0)).0;
    NaturalHalfScaleTransform(f3, 1);
  }

  /**
   * As written, a layout pass that widens the placeholder label of a scaled,
   * natural-aligned placeholder in left-to-right layout keeps the old
   * horizontal translation, so the scaled text no longer starts at the
   * label's left edge.
   */
  lemma AsWrittenResizeLeavesTransformStale()
    ensures var f := Run(AsWritten, InitialField(LeftToRight, 10.0),
                         [SetPlaceholderScale(0.5), SetText(Some("a"), None), LayoutSubviews(100.0),
                          LayoutSubviews(200.0)]);
            && !f.needsTransformUpdateAfterLayout
            && f.placeholder.transform == ScaledPosition(0.5, -25, -7)
            && ExpectedTransform(f) == ScaledPosition(0.5, -50, -7)
            && !TransformSynced(f)
  {
    var f0 := InitialField(LeftToRight, 10.0);
    RunOfFour(AsWritten, f0, SetPlaceholderScale(0.5), SetText(Some("a"), None), LayoutSubviews(100.0),
              LayoutSubviews(200.0));
    FirstLayoutScalesHalfSizePlaceholder();
    var f3 := Step(AsWritten, Step(AsWritten, Step(AsWritten, f0, SetPlaceholderScale(0.5)).0,
                                   SetText(Some("a"), None)).0, LayoutSubviews(100.0)).0;
    WideningLeavesHalfScaleStale(f3);
  }

  /**
   * Widening the label of an up-to-date, half-size, natural-aligned
   * placeholder in left-to-right layout from 100 to 200 points, as written,
   * keeps the translation computed for 100 points.
   */
  lemma WideningLeavesHalfScaleStale(f: Field)
    requires f.scale == 0.5 && f.alignment == Natural && f.direction == LeftToRight
    requires f.textGlyphHeight == 10.0 && f.verticalTextPadding == 0.0 && f.offset == 0.0
    requires f.text == Some("a") && f.mode == ScalesWhenNotEmpty && !f.isFirstResponder && f.labelWidth == 100.0
    requires !f.needsTransformUpdateAfterLayout && f.placeholder.transform == ScaledPosition(0.5, -25, -7)
    ensures var g := Step(AsWritten, f, LayoutSubviews(200.0)).0;
            && !g.needsTransformUpdateAfterLayout
            && g.placeholder.transform == ScaledPosition(0.5, -25, -7)
            && ExpectedTransform(g) == ScaledPosition(0.5, -50, -7)
            && !TransformSynced(g)
  {
    var g := f.(labelWidth := 200.0);
    assert Step(AsWritten, f, LayoutSubviews(200.0)).0 == g;
    NaturalHalfScaleTransform(g, 2);
  }
}

=== FILE: text_field_layout.dfy ===
/**
 * The inset arithmetic of `RAGTextField`: how far the text rectangle is
 * inset from the bounds to leave room for the scaled placeholder above the
 * text, the hint below it, and the clear button beside it.
 *
 * Text measurement is outside the model: a `Metrics` value carries the raw
 * bounding-box heights of the measurement string in the placeholder and
 * hint fonts (the field's own font height is part of the field), and the
 * field rounds them up as the source does. The clear button's size, which
 * the superclass supplies, is a parameter.
 */
module TextFieldLayout {
  import opened Wrappers
  import opened Geometry
  import opened TextField

  /**
   * Raw heights of the bounding box of the measurement string `"X"` in the
   * placeholder font and the hint font.
   */
  datatype Metrics = Metrics(placeholderGlyphHeight: real, hintGlyphHeight: real)

  /** `clearButtonPosition`. */
  function ClearButtonPosition(alignment: TextAlignment, dir: LayoutDirection): (s: Side)
    ensures s == LeftSide <==> alignment == Natural && dir == RightToLeft
  {
    if alignment == Natural && dir == RightToLeft then LeftSide else RightSide
  }

  /**
   * `scaledPlaceholderHeight()`: the height of the scaled placeholder, or
   * nothing in a mode that never scales.
   */
  function ScaledPlaceholderHeight(f: Field, m: Metrics): (h: int)
    ensures !f.mode.ScalesPlaceholder() ==> h == 0
    ensures f.mode.ScalesPlaceholder() ==>
              f.scale * MeasureTextHeight(m.placeholderGlyphHeight) as real <= h as real
              < f.scale * MeasureTextHeight(m.placeholderGlyphHeight) as real + 1.0
    ensures f.scale >= 0.0 && m.placeholderGlyphHeight >= 0.0 ==> h >= 0
  {
    if !f.mode.ScalesPlaceholder() then 0
    else
      var raw := MeasureTextHeight(m.placeholderGlyphHeight);
      assert f.scale >= 0.0 && raw >= 0 ==> f.scale * raw as real >= 0.0;
      Ceil(f.scale * raw as real)
  }

  /**
   * `computeTopInsetToText()`. In a scaling mode the scaled placeholder's
   * height comes on top of the rounded-up offset and padding; in `.simple`
   * mode only the padding counts.
   */
  function TopInset(f: Field, m: Metrics): (t: int)
    ensures !f.mode.ScalesPlaceholder() ==> t == Ceil(f.verticalTextPadding)
    ensures f.mode.ScalesPlaceholder() ==>
              t == ScaledPlaceholderHeight(f, m) + Ceil(f.offset + f.verticalTextPadding)
  {
    var placeholderOffset := if f.mode.ScalesPlaceholder() then f.offset else 0.0;
    var h := ScaledPlaceholderHeight(f, m);
    CeilShift(placeholderOffset + f.verticalTextPadding, h);
    Ceil(h as real + placeholderOffset + f.verticalTextPadding)
  }

  /** Adding `n` whole points of vertical padding moves the text down by exactly `n`. */
  lemma TopInsetTracksPadding(f: Field, m: Metrics, n: int)
    ensures TopInset(f.(verticalTextPadding := f.verticalTextPadding + n as real), m) == TopInset(f, m) + n
  {
    var g := f.(verticalTextPadding := f.verticalTextPadding + n as real);
    assert ScaledPlaceholderHeight(g, m) == ScaledPlaceholderHeight(f, m);
    if f.mode.ScalesPlaceholder() {
      CeilShift(f.offset + f.verticalTextPadding, n);
      assert g.offset + g.verticalTextPadding == (f.offset + f.verticalTextPadding) + n as real;
    } else {
      CeilShift(f.verticalTextPadding, n);
    }
  }

  /**
   * In a mode that scales the placeholder, the top inset always leaves room
   * for the scaled placeholder, its offset and the padding above the text,
   * whether or not the placeholder is scaled at the moment.
   */
  lemma ScaledPlaceholderHasRoom(f: Field, m: Metrics)
    requires f.mode.ScalesPlaceholder()
    ensures TopInset(f, m) as real >= ScaledPlaceholderHeight(f, m) as real + f.offset + f.verticalTextPadding
  {
  }

  /** `hintHeight`: the measured hint height, or nothing while the hint is hidden. */
  function HintHeight(f: Field, m: Metrics): (h: int)
    ensures f.hint.isHidden ==> h == 0
    ensures !f.hint.isHidden ==> h == MeasureTextHeight(m.hintGlyphHeight)
    ensures m.hintGlyphHeight >= 0.0 ==> h >= 0
  {
    if f.hint.isHidden then 0 else MeasureTextHeight(m.hintGlyphHeight)
  }

  /** `computeBottomInsetToText()`: the hint's height on top of the rounded-up padding. */
  function BottomInset(f: Field, m: Metrics): (b: int)
    ensures b == HintHeight(f, m) + Ceil(f.verticalTextPadding)
    ensures f.hint.isHidden ==> b == Ceil(f.verticalTextPadding)
  {
    CeilShift(f.verticalTextPadding, HintHeight(f, m));
    Ceil(HintHeight(f, m) as real + f.verticalTextPadding)
  }

  /** Without a hint, the bottom inset is the padding alone, whatever hint was set before. */
  lemma NoHintLeavesOnlyPadding(f: Field, m: Metrics)
    ensures BottomInset(SetHint(f, None), m) == Ceil(f.verticalTextPadding)
  {
  }

  /**
   * `clearButtonRect(forBounds:)`: the superclass's button size, placed
   * `horizontalTextPadding` from the left or right edge of `bounds` and
   * centred vertically on the first line of text.
   */
  function ClearButtonRect(f: Field, m: Metrics, bounds: Rect, size: Size): (r: Rect)
    ensures r.width == size.width && r.height == size.height
    ensures ClearButtonPosition(f.alignment, f.direction) == LeftSide ==> r.MinX() == f.horizontalTextPadding
    ensures ClearButtonPosition(f.alignment, f.direction) == RightSide ==> r.MaxX() == bounds.width - f.horizontalTextPadding
    ensures r.MinY() + r.height / 2.0 == TopInset(f, m) as real + MeasureTextHeight(f.textGlyphHeight) as real / 2.0
  {
    var y := TopInset(f, m) as real + 0.5 * (MeasureTextHeight(f.textGlyphHeight) as real - size.height);
    var x := if ClearButtonPosition(f.alignment, f.direction) == LeftSide then f.horizontalTextPadding
             else bounds.width - size.width - f.horizontalTextPadding;
    Rect(x, y, size.width, size.height)
  }

  /** `computeLeftInsetToText()`, measured against the view's own bounds. */
  function LeftInset(f: Field, m: Metrics, bounds: Rect, size: Size): (l: real)
    ensures ClearButtonPosition(f.alignment, f.direction) == LeftSide ==> l == 2.0 * f.horizontalTextPadding + size.width
    ensures ClearButtonPosition(f.alignment, f.direction) == RightSide ==> l == f.horizontalTextPadding
  {
    if ClearButtonPosition(f.alignment, f.direction) == LeftSide then
      f.horizontalTextPadding + ClearButtonRect(f, m, bounds, size).MaxX()
    else
      f.horizontalTextPadding
  }

  /** `computeRightInsetToText()`, measured against the view's own bounds. */
  function RightInset(f: Field, m: Metrics, bounds: Rect, size: Size): (l: real)
    ensures ClearButtonPosition(f.alignment, f.direction) == RightSide ==> l == 2.0 * f.horizontalTextPadding + size.width
    ensures ClearButtonPosition(f.alignment, f.direction) == LeftSide ==> l == f.horizontalTextPadding
  {
    if ClearButtonPosition(f.alignment, f.direction) == LeftSide then
      f.horizontalTextPadding
    else
      f.horizontalTextPadding + bounds.width - ClearButtonRect(f, m, bounds, size).MinX()
  }

  /**
   * `textAndEditingRect(forBounds:)`: `forBounds` inset by the four insets,
   * which are computed against the view's own bounds `viewBounds`.
   */
  function TextAndEditingRect(f: Field, m: Metrics, viewBounds: Rect, forBounds: Rect, size: Size): (r: Rect)
    ensures r.MinY() == forBounds.MinY() + TopInset(f, m) as real
    ensures r.MaxY() == forBounds.MaxY() - BottomInset(f, m) as real
    ensures ClearButtonPosition(f.alignment, f.direction) == RightSide ==>
              && r.MinX() == forBounds.MinX() + f.horizontalTextPadding
              && r.MaxX() == forBounds.MaxX() - (2.0 * f.horizontalTextPadding + size.width)
    ensures ClearButtonPosition(f.alignment, f.direction) == LeftSide ==>
              && r.MinX() == forBounds.MinX() + (2.0 * f.horizontalTextPadding + size.width)
              && r.MaxX() == forBounds.MaxX() - f.horizontalTextPadding
  {
    var insets := EdgeInsets(TopInset(f, m) as real, LeftInset(f, m, viewBounds, size),
                             BottomInset(f, m) as real, RightInset(f, m, viewBounds, size));
    Inset(forBounds, insets)
  }

  /** `textRect(forBounds:)`. */
  function TextRect(f: Field, m: Metrics, viewBounds: Rect, forBounds: Rect, size: Size): (r: Rect)
    ensures r.MinY() == forBounds.MinY() + TopInset(f, m) as real
    ensures r.MaxY() == forBounds.MaxY() - BottomInset(f, m) as real
    ensures r.width == forBounds.width - (3.0 * f.horizontalTextPadding + size.width)
  {
    TextAndEditingRect(f, m, viewBounds, forBounds, size)
  }

  /** `editingRect(forBounds:)`. */
  function EditingRect(f: Field, m: Metrics, viewBounds: Rect, forBounds: Rect, size: Size): (r: Rect)
    ensures r.MinY() == forBounds.MinY() + TopInset(f, m) as real
    ensures r.MaxY() == forBounds.MaxY() - BottomInset(f, m) as real
    ensures r.width == forBounds.width - (3.0 * f.horizontalTextPadding + size.width)
  {
    TextAndEditingRect(f, m, viewBounds, forBounds, size)
  }

  /**
   * The text is drawn and edited in the same rectangle, and that rectangle
   * does not depend on the view's own bounds, only on the bounds asked for.
   */
  lemma TextAndEditingRectsCoincide(f: Field, m: Metrics, viewBounds: Rect, viewBounds': Rect, forBounds: Rect, size: Size)
    ensures TextRect(f, m, viewBounds, forBounds, size) == EditingRect(f, m, viewBounds, forBounds, size)
    ensures TextRect(f, m, viewBounds, forBounds, size) == TextRect(f, m, viewBounds', forBounds, size)
  {
  }

  /**
   * The clear button sits beside the text rectangle, separated from it by
   * exactly `horizontalTextPadding`, on the side `clearButtonPosition`
   * names; with non-negative padding the two never overlap.
   */
  lemma ClearButtonBesideText(f: Field, m: Metrics, bounds: Rect, size: Size)
    requires bounds.x == 0.0
    ensures var text := TextAndEditingRect(f, m, bounds, bounds, size);
            var button := ClearButtonRect(f, m, bounds, size);
            && (ClearButtonPosition(f.alignment, f.direction) == RightSide ==>
                  text.MaxX() + f.horizontalTextPadding == button.MinX())
            && (ClearButtonPosition(f.alignment, f.direction) == LeftSide ==>
                  button.MaxX() + f.horizontalTextPadding == text.MinX())
  {
  }

  /**
   * `intrinsicContentSize`'s height: the top inset, one line of text and the
   * bottom inset. All three are whole numbers, so the final rounding adds
   * nothing.
   */
  function IntrinsicHeight(f: Field, m: Metrics): (h: int)
    ensures h == TopInset(f, m) + MeasureTextHeight(f.textGlyphHeight) + BottomInset(f, m)
  {
    var sum := TopInset(f, m) + MeasureTextHeight(f.textGlyphHeight) + BottomInset(f, m);
    CeilOfInt(sum);
    Ceil(TopInset(f, m) as real + MeasureTextHeight(f.textGlyphHeight) as real + BottomInset(f, m) as real)
  }
}

=== FILE: underline_view.dfy ===
/**
 * `UnderlineView` of the library: a full-width background line with a
 * foreground line on top of it that expands to full width and contracts to
 * nothing. Expansion switches a full-width constraint on and off; the
 * expand mode decides which edge of the view the foreground line is pinned
 * to while it grows. The view can bind itself to a text field and expand
 * while that field is being edited.
 *
 * Constraints are modelled by their active flags, not by the frames Auto
 * Layout would compute; the notification centre is modelled by the set of
 * (field, notification) pairs the view observes.
 */
module UnderlineView {
  import opened Wrappers
  import opened Geometry

  /** `UnderlineView.Mode`: how the foreground line grows. */
  datatype ExpandMode =
    | ExpandsFromCenter
    | ExpandsFromRight
    | ExpandsFromLeft
    | ExpandsInUserInterfaceDirection
    | NotAnimated

  /** The active flags of the foreground line's leading and trailing constraints. */
  datatype EdgePins = EdgePins(leading: bool, trailing: bool)

  /** The physical sides of the view that active edge constraints pin the line to. */
  function PinnedSides(p: EdgePins, dir: LayoutDirection): (sides: set<Side>)
    ensures SideOf(true, dir) in sides <==> p.leading
    ensures SideOf(false, dir) in sides <==> p.trailing
  {
    (if p.leading then {SideOf(true, dir)} else {}) + (if p.trailing then {SideOf(false, dir)} else {})
  }

  /** The `updateConstraints()` table: which edge constraints each mode activates. */
  function EdgeConstraints(mode: ExpandMode, dir: LayoutDirection): (p: EdgePins)
    ensures !(p.leading && p.trailing)
    ensures mode == ExpandsFromCenter || mode == NotAnimated ==> PinnedSides(p, dir) == {}
    ensures mode == ExpandsFromLeft ==> PinnedSides(p, dir) == {LeftSide}
    ensures mode == ExpandsFromRight ==> PinnedSides(p, dir) == {RightSide}
    ensures mode == ExpandsInUserInterfaceDirection ==> p == EdgePins(true, false)
  {
    match mode
    case ExpandsFromCenter => EdgePins(false, false)
    case NotAnimated => EdgePins(false, false)
    case ExpandsFromRight => if dir == LeftToRight then EdgePins(false, true) else EdgePins(true, false)
    case ExpandsFromLeft => if dir == LeftToRight then EdgePins(true, false) else EdgePins(false, true)
    case ExpandsInUserInterfaceDirection => EdgePins(true, false)
  }

  /** An opaque reference to a text field. */
  datatype FieldRef = FieldRef(id: nat)

  /** The editing notifications the view can observe. */
  datatype Notification = DidBeginEditing | DidEndEditing

  /** The state of one underline view. */
  datatype Underline = Underline(
    expandMode: ExpandMode,
    isExpanded: bool,
    /** whether the full-width constraint of the foreground line is active */
    widthConstraintActive: bool,
    pins: EdgePins,
    needsUpdateConstraints: bool,
    foregroundLineWidth: real,
    /** the constant of the foreground line's height constraint */
    heightConstant: real,
    animatesWhenEditingBegins: bool,
    animatesWhenEditingEnds: bool,
    textField: Option<FieldRef>,
    /** the notification-centre registrations of this view */
    observations: set<(FieldRef, Notification)>)

  /** The registrations that observing `t` amounts to. */
  function ObservationsOf(t: Option<FieldRef>): (obs: set<(FieldRef, Notification)>)
    ensures t == None ==> obs == {}
    ensures forall p :: p in obs ==> t == Some(p.0)
    ensures t != None ==> (t.value, DidBeginEditing) in obs && (t.value, DidEndEditing) in obs
  {
    if t == None then {} else {(t.value, DidBeginEditing), (t.value, DidEndEditing)}
  }

  /**
   * The invariant the view keeps: the full-width constraint is active exactly
   * while the line is expanded, the height constraint follows the line
   * width, and the view observes exactly the bound text field.
   */
  predicate Valid(u: Underline)
  {
    && u.widthConstraintActive == u.isExpanded
    && u.heightConstant == u.foregroundLineWidth
    && u.observations == ObservationsOf(u.textField)
  }

  /** The state after `init` and `commonInit`. */
  function Initial(): (u: Underline)
    ensures Valid(u)
    ensures !u.isExpanded && !u.widthConstraintActive
    ensures u.observations == {}
  {
    Underline(ExpandsFromCenter, false, false, EdgePins(false, false), true, 1.0, 1.0, true, true, None, {})
  }

  /**
   * `setExpanded(_:animated:)`: returns the new state and whether a layout
   * animation was requested.
   */
  function SetExpanded(u: Underline, expanded: bool, animated: bool): (r: (Underline, bool))
    ensures expanded == u.isExpanded ==> r == (u, false)
    ensures expanded != u.isExpanded ==> r.0 == u.(isExpanded := expanded, widthConstraintActive := expanded)
    ensures r.1 <==> expanded != u.isExpanded && animated && u.expandMode != NotAnimated
    ensures Valid(u) ==> Valid(r.0) && r.0.isExpanded == expanded && r.0.widthConstraintActive == expanded
  {
    if expanded == u.isExpanded then (u, false)
    else
      var animates := animated && u.expandMode != NotAnimated;
      (u.(widthConstraintActive := expanded, isExpanded := expanded), animates)
  }

  /** Asking for the state the line is already in a second time changes nothing and animates nothing. */
  lemma SetExpandedIdempotent(u: Underline, expanded: bool, animated: bool, animated': bool)
    ensures var once := SetExpanded(u, expanded, animated).0;
            SetExpanded(once, expanded, animated') == (once, false)
  {
  }

  /** `updateConstraints()`: activates the edge constraints for the current mode. */
  function UpdateConstraints(u: Underline, dir: LayoutDirection): (r: Underline)
    ensures r.pins == EdgeConstraints(u.expandMode, dir)
    ensures !(r.pins.leading && r.pins.trailing)
    ensures r.pins == EdgePins(false, false) <==> u.expandMode == ExpandsFromCenter || u.expandMode == NotAnimated
    ensures !r.needsUpdateConstraints
    ensures r.(pins := u.pins, needsUpdateConstraints := u.needsUpdateConstraints) == u
    ensures Valid(u) ==> Valid(r)
  {
    u.(pins := EdgeConstraints(u.expandMode, dir), needsUpdateConstraints := false)
  }

  /** The `expandMode` setter: the edge constraints follow at the next constraint pass. */
  function SetExpandMode(u: Underline, mode: ExpandMode): (r: Underline)
    ensures r.expandMode == mode && r.needsUpdateConstraints
    ensures r.(expandMode := u.expandMode, needsUpdateConstraints := u.needsUpdateConstraints) == u
    ensures Valid(u) ==> Valid(r)
  {
    u.(expandMode := mode, needsUpdateConstraints := true)
  }

  /** The `foregroundLineWidth` setter. */
  function SetForegroundLineWidth(u: Underline, width: real): (r: Underline)
    ensures r.heightConstant == width && r.foregroundLineWidth == width
    ensures Valid(u) ==> Valid(r)
  {
    u.(foregroundLineWidth := width, heightConstant := width)
  }

  /** The `textField` setter: stop observing the old field, then observe the new one. */
  function SetTextField(u: Underline, t: Option<FieldRef>): (r: Underline)
    ensures r.textField == t
    ensures Valid(u) ==> Valid(r)
    ensures Valid(u) && t == None ==> r.observations == {}
  {
    var stopped := u.observations - ObservationsOf(u.textField);
    u.(textField := t, observations := stopped + ObservationsOf(t))
  }

  /**
   * A notification posted by text field `field`: the handler runs only if the
   * view observes that notification of that field. Beginning to edit
   * expands the line, ending contracts it, each animated by its own flag.
   */
  function Post(u: Underline, field: FieldRef, n: Notification): (r: (Underline, bool))
    ensures (field, n) !in u.observations ==> r == (u, false)
    ensures (field, n) in u.observations && n == DidBeginEditing ==>
              r == SetExpanded(u, true, u.animatesWhenEditingBegins)
    ensures (field, n) in u.observations && n == DidEndEditing ==>
              r == SetExpanded(u, false, u.animatesWhenEditingEnds)
  {
    if (field, n) !in u.observations then (u, false)
    else
      match n
      case DidBeginEditing => SetExpanded(u, true, u.animatesWhenEditingBegins)
      case DidEndEditing => SetExpanded(u, false, u.animatesWhenEditingEnds)
  }

  /**
   * After rebinding, the previous text field can no longer reach the view:
   * none of its notifications changes anything. Unbinding with `nil` leaves
   * no field able to reach it.
   */
  lemma RebindingDropsOldField(u: Underline, t: Option<FieldRef>, previous: FieldRef, n: Notification)
    requires Valid(u)
    requires t != Some(previous)
    ensures var r := SetTextField(u, t); Post(r, previous, n) == (r, false)
  {
  }

  /** A bound field's editing drives the line: begin expands it, end contracts it. */
  lemma BoundFieldDrivesExpansion(u: Underline, field: FieldRef)
    requires Valid(u)
    ensures var r := SetTextField(u, Some(field));
            && Post(r, field, DidBeginEditing).0.isExpanded
            && !Post(r, field, DidEndEditing).0.isExpanded
  {
  }
}

=== FILE: underline_view_example.dfy ===
/**
 * The `UnderlineView` of the example app, a copy of `LegacyUnderlineView`
 * that differs from it and from the library view in `.notAnimated` mode: it
 * pins the line to both edges there, and it animates a change even in that
 * mode.
 */
module ExampleUnderlineView {
  import opened Geometry
  import U = UnderlineView
  import L = LegacyUnderlineView

  /**
   * The state, its invariant, the initial state and the `lineWidth` setter
   * are those of `LegacyUnderlineView`, of which this view is a copy.
   */
  type Underline = L.Underline

  /** The `updateConstraints()` table of this view. */
  function EdgeConstraints(mode: U.ExpandMode, dir: LayoutDirection): (p: U.EdgePins)
    ensures mode == U.NotAnimated <==> p.leading && p.trailing
    ensures mode == U.ExpandsFromCenter ==> U.PinnedSides(p, dir) == {}
    ensures mode == U.ExpandsFromLeft ==> U.PinnedSides(p, dir) == {LeftSide}
    ensures mode == U.ExpandsFromRight ==> U.PinnedSides(p, dir) == {RightSide}
    ensures mode == U.ExpandsInUserInterfaceDirection ==> p == U.EdgePins(true, false)
  {
    match mode
    case ExpandsFromCenter => U.EdgePins(false, false)
    case ExpandsFromRight => if dir == LeftToRight then U.EdgePins(false, true) else U.EdgePins(true, false)
    case ExpandsFromLeft => if dir == LeftToRight then U.EdgePins(true, false) else U.EdgePins(false, true)
    case ExpandsInUserInterfaceDirection => U.EdgePins(true, false)
    case NotAnimated => U.EdgePins(true, true)
  }

  /** Outside `.notAnimated` this view pins exactly what the library view pins. */
  lemma TableDiffersFromLibraryOnlyWhenNotAnimated(mode: U.ExpandMode, dir: LayoutDirection)
    ensures mode != U.NotAnimated ==> EdgeConstraints(mode, dir) == U.EdgeConstraints(mode, dir)
    ensures mode == U.NotAnimated ==>
              U.PinnedSides(EdgeConstraints(mode, dir), dir) == {LeftSide, RightSide}
              && U.PinnedSides(U.EdgeConstraints(mode, dir), dir) == {}
  {
  }

  /** `updateConstraints()`. */
  function UpdateConstraints(u: Underline, dir: LayoutDirection): (r: Underline)
    ensures r.pins == EdgeConstraints(u.expandMode, dir)
    ensures r.pins.leading && r.pins.trailing <==> u.expandMode == U.NotAnimated
    ensures !r.needsUpdateConstraints
    ensures r.(pins := u.pins, needsUpdateConstraints := u.needsUpdateConstraints) == u
    ensures L.Valid(u) ==> L.Valid(r)
  {
    u.(pins := EdgeConstraints(u.expandMode, dir), needsUpdateConstraints := false)
  }

  /** `setExpanded(_:animated:)`: the new state and whether a layout animation was requested. */
  function SetExpanded(u: Underline, expanded: bool, animated: bool): (r: (Underline, bool))
    ensures expanded == u.isExpanded ==> r == (u, false)
    ensures expanded != u.isExpanded ==> r.0 == u.(isExpanded := expanded, widthConstraintActive := expanded)
    ensures r.1 <==> expanded != u.isExpanded && animated
    ensures L.Valid(u) ==> L.Valid(r.0) && r.0.isExpanded == expanded && r.0.widthConstraintActive == expanded
  {
    if expanded == u.isExpanded then (u, false)
    else (u.(widthConstraintActive := expanded, isExpanded := expanded), animated)
  }

  /** Repeating a request changes nothing and animates nothing. */
  lemma SetExpandedIdempotent(u: Underline, expanded: bool, animated: bool, animated': bool)
    ensures var once := SetExpanded(u, expanded, animated).0;
            SetExpanded(once, expanded, animated') == (once, false)
  {
  }

  /**
   * This view requests an animation exactly when the library view does,
   * except in `.notAnimated` mode, where it animates a change the library
   * view applies instantly.
   */
  lemma AnimationDiffersFromLibraryOnlyWhenNotAnimated(u: Underline, lib: U.Underline, expanded: bool, animated: bool)
    requires u.expandMode == lib.expandMode && u.isExpanded == lib.isExpanded
    ensures var mine := SetExpanded(u, expanded, animated).1;
            var theirs := U.SetExpanded(lib, expanded, animated).1;
            && (u.expandMode != U.NotAnimated ==> mine == theirs)
            && (u.expandMode == U.NotAnimated ==> !theirs && (mine <==> expanded != u.isExpanded && animated))
  {
  }

}

=== FILE: underline_view_legacy.dfy ===
/**
 * The earlier `UnderlineView` that ships next to the older `RAGTextField`:
 * the same expand modes and the same expansion logic as the library view,
 * a single `lineWidth` for the foreground line's height constraint, and no
 * binding to a text field.
 */
module LegacyUnderlineView {
  import opened Geometry
  import U = UnderlineView

  /** The state of one view. */
  datatype Underline = Underline(
    expandMode: U.ExpandMode,
    isExpanded: bool,
    widthConstraintActive: bool,
    pins: U.EdgePins,
    needsUpdateConstraints: bool,
    lineWidth: real,
    heightConstant: real)

  /** The full-width constraint follows the expansion, the height constraint the line width. */
  predicate Valid(u: Underline)
  {
    u.widthConstraintActive == u.isExpanded && u.heightConstant == u.lineWidth
  }

  /** The state after `init` and `commonInit`. */
  function Initial(): (u: Underline)
    ensures Valid(u)
    ensures !u.isExpanded && !u.widthConstraintActive
  {
    Underline(U.ExpandsFromCenter, false, false, U.EdgePins(false, false), true, 1.0, 1.0)
  }

  /** The `updateConstraints()` table of this view. */
  function EdgeConstraints(mode: U.ExpandMode, dir: LayoutDirection): (p: U.EdgePins)
    ensures !(p.leading && p.trailing)
    ensures mode == U.ExpandsFromCenter || mode == U.NotAnimated ==> U.PinnedSides(p, dir) == {}
    ensures mode == U.ExpandsFromLeft ==> U.PinnedSides(p, dir) == {LeftSide}
    ensures mode == U.ExpandsFromRight ==> U.PinnedSides(p, dir) == {RightSide}
    ensures mode == U.ExpandsInUserInterfaceDirection ==> p == U.EdgePins(true, false)
  {
    match mode
    case ExpandsFromCenter => U.EdgePins(false, false)
    case NotAnimated => U.EdgePins(false, false)
    case ExpandsFromRight => if dir == LeftToRight then U.EdgePins(false, true) else U.EdgePins(true, false)
    case ExpandsFromLeft => if dir == LeftToRight then U.EdgePins(true, false) else U.EdgePins(false, true)
    case ExpandsInUserInterfaceDirection => U.EdgePins(true, false)
  }

  /** This view pins exactly the edges the library view pins, in every mode and direction. */
  lemma SameTableAsLibrary(mode: U.ExpandMode, dir: LayoutDirection)
    ensures EdgeConstraints(mode, dir) == U.EdgeConstraints(mode, dir)
  {
  }

  /** `updateConstraints()`. */
  function UpdateConstraints(u: Underline, dir: LayoutDirection): (r: Underline)
    ensures r.pins == EdgeConstraints(u.expandMode, dir)
    ensures !(r.pins.leading && r.pins.trailing)
    ensures r.pins == U.EdgePins(false, false) <==> u.expandMode == U.ExpandsFromCenter || u.expandMode == U.NotAnimated
    ensures !r.needsUpdateConstraints
    ensures r.(pins := u.pins, needsUpdateConstraints := u.needsUpdateConstraints) == u
    ensures Valid(u) ==> Valid(r)
  {
    u.(pins := EdgeConstraints(u.expandMode, dir), needsUpdateConstraints := false)
  }

  /** `setExpanded(_:animated:)`: the new state and whether a layout animation was requested. */
  function SetExpanded(u: Underline, expanded: bool, animated: bool): (r: (Underline, bool))
    ensures expanded == u.isExpanded ==> r == (u, false)
    ensures expanded != u.isExpanded ==> r.0 == u.(isExpanded := expanded, widthConstraintActive := expanded)
    ensures r.1 <==> expanded != u.isExpanded && animated && u.expandMode != U.NotAnimated
    ensures Valid(u) ==> Valid(r.0) && r.0.isExpanded == expanded && r.0.widthConstraintActive == expanded
  {
    if expanded == u.isExpanded then (u, false)
    else
      var animates := animated && u.expandMode != U.NotAnimated;
      (u.(widthConstraintActive := expanded, isExpanded := expanded), animates)
  }

  /** Repeating a request changes nothing and animates nothing. */
  lemma SetExpandedIdempotent(u: Underline, expanded: bool, animated: bool, animated': bool)
    ensures var once := SetExpanded(u, expanded, animated).0;
            SetExpanded(once, expanded, animated') == (once, false)
  {
  }

  /**
   * From the same mode and expansion, this view and the library view end in
   * the same expansion and width-constraint state and request an animation
   * in the same cases.
   */
  lemma SetExpandedAgreesWithLibrary(u: Underline, lib: U.Underline, expanded: bool, animated: bool)
    requires u.expandMode == lib.expandMode && u.isExpanded == lib.isExpanded
    requires u.widthConstraintActive == lib.widthConstraintActive
    ensures var r := SetExpanded(u, expanded, animated);
            var l := U.SetExpanded(lib, expanded, animated);
            && r.0.isExpanded == l.0.isExpanded
            && r.0.widthConstraintActive == l.0.widthConstraintActive
            && r.1 == l.1
  {
  }

  /** The `lineWidth` setter. */
  function SetLineWidth(u: Underline, width: real): (r: Underline)
    ensures r.heightConstant == width && r.lineWidth == width
    ensures Valid(u) ==> Valid(r)
  {
    u.(lineWidth := width, heightConstant := width)
  }
}

=== FILE: wrappers.dfy ===
/** Optional values, standing in for Swift's `T?`. */
module Wrappers {

  datatype Option<+T> = None | Some(value: T) {

    /** Swift's `x ?? default`. */
    function GetOr(default: T): T
    {
      match this
      case Some(v) => v
      case None => default
    }
  }
}
